=== FILE: README.md ===
# Pallet ledger — a Dafny model

The system tracks pallets moving between the areas of a distribution centre
(CD). Every change is one `Movimentacao` row with the following fields:

- an optional origin and an optional destination;
- a pallet type and an integer quantity;
- an optional supplier and an optional note;
- a creation instant.

An *entrada* (goods in) has no origin. A *saída* (goods out) goes from an area
to a supplier. A *transferência* moves pallets between two areas, and it is
refused when the origin would go negative.

Every balance, dashboard and report is a fold over that append-only list. A
small supplier registry keeps one row per normalised name.

The model is a pure functional layer over `seq<Movement>`:

- **Ledger.** The `Movement` row, `Number(…)` results (`Num`), instants and
  calendar-month windows.
- **Text.** The parts of `trim`, `toUpperCase` and `toLowerCase` that the code
  relies on, `\s+` collapsing, NFD accent stripping and `String(n)`.
- **Saldo.** `calcularSaldo`: the signed balance of one (area, type) under a
  trim-and-lower-case match. Accents are kept.
- **Transfer, Entry, Exit.** The three write routes as decision functions from
  the ledger and a request to the row they create, or the rejection they
  answer.
- **BalanceGrid.** `GET /api/saldos`, the seven areas × four types grid.
- **Dashboard.** The `/saldos` page's own fold, covering `norm`, `add`, the
  cards and `totalGeral`.
- **Farol.** The Logística Reversa traffic light.
- **Monthly, TypeSummary, Comparison.** The per-area and per-type monthly
  summaries and the twelve-month comparison.
- **Suppliers.** `normNome` and the POST and PUT rules of `/api/fornecedores`.
- **History, Export.** The history filter, newest-first order, and the CSV
  export with its quoting. Quotes are doubled as in section 2, rule 7 of
  RFC 4180, and the text is parsed back.

A database read is the ledger passed in. A database write is the row or the
table returned. The instant a row is created at is a parameter. How the
export renders a date is a function parameter.

## Model

| member | source | states |
|---|---|---|
| Saldo.Balance | app/lib/calcularSaldo.ts:15-44 | the balance of the empty ledger is 0 |
| Saldo.Norm | app/lib/calcularSaldo.ts:8-10 | the result is trimmed, and it is "" exactly when the name is missing or blank |
| Saldo.NormKeepsLetters | app/lib/calcularSaldo.ts:8-10 | apart from white space, `norm` keeps every character of the name, lower-cased, in order |
| Saldo.Step | app/lib/calcularSaldo.ts:23-43 | one row adds 0, its quantity or minus its quantity, and nothing unless its normalised type is the requested one and one of its ends normalises to the area |
| Saldo.Fold | app/lib/calcularSaldo.ts:23-43 | for a non-empty normalised area the `reduce` equals Σ quantity of the type's rows arriving at the area minus Σ quantity of those leaving it |
| Saldo.BalanceIsInflowMinusOutflow | app/lib/calcularSaldo.ts:23-43 | for a named area, the balance is Σ quantity of same-type rows arriving at it minus Σ quantity of same-type rows leaving it; a null-origin row only adds |
| Saldo.OtherTypeContributesNothing | app/lib/calcularSaldo.ts:24 | a row whose normalised type differs leaves every balance of the requested type unchanged |
| Saldo.BalanceAppend | app/lib/calcularSaldo.ts:23-43 | the fold is additive: balance(a ++ b) = balance(a) + balance(b) |
| Saldo.BalancePermutation | app/lib/calcularSaldo.ts:23-43 | the balance does not depend on the order of the rows: any permutation gives the same value |
| Saldo.LoopContributesNothing | app/lib/calcularSaldo.ts:33-40 | a row whose origin and destination normalise alike contributes net 0 to every area |
| Saldo.EntradaCreditsDestinationOnly | app/lib/calcularSaldo.ts:27-30 | appending a null-origin row of the matching type raises its destination's balance by its quantity and leaves every other named area unchanged |
| Saldo.EntradaDebitsEmptyArea | app/lib/calcularSaldo.ts:8-10 | with an empty area name, an entrada to area "A" is debited, because `norm(null)` is "" and equals the area |
| Saldo.NormIgnoresCase | app/lib/calcularSaldo.ts:8-10 | an upper-cased name matches like the original |
| Saldo.NormIgnoresPadding | app/lib/calcularSaldo.ts:8-10 | white space around a name does not change the match |
| Saldo.AccentsDistinguishNames | app/lib/calcularSaldo.ts:8-10 | two trimmed names that differ only by an accented letter versus its bare letter ("DESCARTÁVEL" / "DESCARTAVEL") never match |
| Saldo.NormOfUpperField | app/api/movimentacoes/route.ts:34-36 | a name stored as `trim().toUpperCase()` matches the raw request name |
| Saldo.WorkedExample | app/lib/calcularSaldo.ts:15-44 | 100 in to A then 40 from A to B leaves A at 60 and B at 40 |
| Saldo.EntradaThenTransfer | app/lib/calcularSaldo.ts:23-43 | for any two areas with distinct non-empty norms, an entrada into a then a transfer a → b leaves a at the difference of the two quantities and b at the transfer's |
| Transfer.Validate | app/api/movimentacoes/route.ts:34-67 | "missing fields" iff a trimmed upper-cased name is empty or the quantity is not finite; "quantity" iff the fields are there and quantity ≤ 0; "same endpoints" iff both earlier checks pass and origem = destino; the first failing check wins; otherwise the upper-cased names and a positive count |
| Transfer.Admit | app/api/movimentacoes/route.ts:34-106 | a validation error is answered as is; otherwise "insufficient balance" with the current balance iff the guard balance is below the quantity, else exactly the one row (origem, destino, tipo, quantity, supplier, note) |
| Transfer.OfType | app/api/movimentacoes/route.ts:70-78 | the guard reads exactly the ledger rows whose stored type equals the request type, and all of a ledger that stores only that type |
| Transfer.GuardBalance | app/api/movimentacoes/route.ts:70-84 | on a ledger that stores the type one way only, the guard is `calcularSaldo` of it; with no row stored under exactly that type, it is 0 |
| Transfer.TransferStep | app/lib/calcularSaldo.ts:32-40 | a row between two areas with distinct norms takes its quantity from the origin, gives it to the destination and changes no third area |
| Transfer.GuardIgnoresOtherSpellings | app/api/movimentacoes/route.ts:70-78 | the guard reads only rows whose stored type equals the request type exactly: another spelling never changes it |
| Transfer.AdmittedKeepsOriginNonNegative | app/api/movimentacoes/route.ts:80-106 | after an admitted transfer, the origin's guard balance is the old one minus the quantity and is ≥ 0 |
| Transfer.AdmittedMovesQuantity | app/api/movimentacoes/route.ts:97-106 | an admitted transfer lowers the origin by the quantity, raises the destination by it and leaves every other named area unchanged |
| Transfer.DrainedOriginRefusesNext | app/api/movimentacoes/route.ts:80-94 | once a transfer empties its origin, the next transfer of the same type from it is refused, reporting a balance of 0 |
| Entry.Note | app/api/entrada/route.ts:47-49 | the note is "<obs> \| Operador: <op>" when a trimmed note is given, else "Entrada \| Operador: <op>" |
| Entry.Register | app/api/entrada/route.ts:15-53 | "missing fields" iff area, type or operator is blank or the quantity is not finite; "quantity" iff the fields are there and quantity ≤ 0; otherwise accepted whatever the ledger holds, with a null origin and the trimmed upper-cased area and type |
| Entry.RegisteredEntradaCredits | app/api/entrada/route.ts:40-53 | a registered entrada raises the balance of its own area and type by its quantity and leaves every other named area and type unchanged |
| Exit.Register | app/api/saida/route.ts:15-54 | 400 iff a trimmed name is blank or `!quantidade \|\| quantidade <= 0`; an infinite quantity passes and the integer column refuses it (500); otherwise the row area → supplier, trimmed but not upper-cased |
| Exit.SaidaOverdraws | app/api/saida/route.ts:43-54 | a valid saida is accepted whatever the ledger holds and lowers its area's balance by the quantity, so an area holding less ends negative |
| BalanceGrid.Grid | app/api/saldos/route.ts:9-56 | one entry per area of `AREAS_CD`, in order, each with exactly the four `TIPOS_PALETE` keys, each value being `calcularSaldo` of the whole ledger |
| BalanceGrid.GridAfterEntrada | app/api/saldos/route.ts:39-54 | registering an entrada raises exactly the grid cells whose area and type normalise like the request's, by the quantity |
| Dashboard.Key | app/saldos/page.tsx:17-23 | `norm` (trim, upper-case, strip accents) yields an accent-free key |
| Dashboard.Add | app/saldos/page.tsx:25-37 | `add` is a no-op when the normalised area or type is empty or the quantity is not finite; otherwise it bumps the one cell of the normalised key |
| Dashboard.AddLookup | app/saldos/page.tsx:31-36 | `add` changes only the cell saldo[norm(area)][norm(tipo)], by the quantity; every other cell is unchanged |
| Dashboard.AddAreaTotal | app/saldos/page.tsx:31-36 | `add` moves the total of the normalised area by the quantity and no other area's total |
| Dashboard.AddInvariant | app/saldos/page.tsx:25-37 | `add` keeps one cell per (area, type) and keeps every area key accent-free |
| Dashboard.SaldoLookup | app/saldos/page.tsx:57-71 | each cell of the page's table equals the entradas of its normalised (area, type) plus the movements into it minus those out of a present origin |
| Dashboard.SaldoAreaTotal | app/saldos/page.tsx:57-71 | the total of an area is its net over every named type |
| Dashboard.Saldo | app/saldos/page.tsx:57-71 | the page's table holds one cell per (area, type) and its area keys are accent-free |
| Dashboard.CardOf | app/saldos/page.tsx:84-88 | a card carries its label and exactly the cells stored under its key |
| Dashboard.CardsAsWritten | app/saldos/page.tsx:82-88 | seven cards in `AREAS` order, each looked up by the upper-cased name |
| Dashboard.AccentedCardsReadEmpty | app/saldos/page.tsx:82-85 | the cards of "PRODUÇÃO" and "FRIGO HORTOLÂNDIA" show no cells and a total of 0, whatever the tables hold |
| Dashboard.Cards | app/saldos/page.tsx:82-88 | seven cards in `AREAS` order, labelled with the upper-cased name, each reading the cells under the normalised name |
| Dashboard.CardTotals | app/saldos/page.tsx:84-88 | each corrected card's total is the net of every entrada and movement whose normalised area is the card's |
| Dashboard.TotalGeral | app/saldos/page.tsx:90 | the sum of the card totals is 0 when every card's is, ≥ 0 when every card's is, and ≤ 0 when every card's is |
| Dashboard.TotalGeralOf | app/saldos/page.tsx:90 | when each card's total is the net of its area key, `totalGeral` is the net over those keys |
| Dashboard.TotalGeralIsNet | app/saldos/page.tsx:90 | `totalGeral` of the corrected cards is the net of the ledger over the seven areas |
| Dashboard.FarolHiddenOnEveryCard | app/saldos/page.tsx:143-146 | the light gets the card's upper-cased name and shows on no card |
| Dashboard.CorrectedFarolOnReverseLogistics | app/saldos/page.tsx:143-146 | compared under `norm`, the light shows on the "LOGISTICA REVERSA" card and only there |
| Farol.Classify | components/FarolLogisticaReversa.tsx:15-24 | ≤ 600 is Crítico, 601..1199 is Atenção, ≥ 1200 is Saudável, each iff |
| Farol.ClassifyMonotone | components/FarolLogisticaReversa.tsx:15-24 | a larger balance never gets a worse status |
| Farol.ReportAgreesWithComponent | app/api/relatorios/excel/route.ts:128-131 | the Excel report's farol sheet classifies every balance as the component does |
| Farol.Farol | components/FarolLogisticaReversa.tsx:6-24 | a status iff the area is exactly "Logística Reversa", and then the classification of the balance |
| Monthly.CheckPeriod | app/api/resumo-mensal/route.ts:10-18 | 400 "Ano e mês obrigatórios" iff the year or month is missing, 0 or NaN; an infinite one makes the query fail (500) |
| Monthly.Window | app/api/resumo-mensal/route.ts:20-26 | exactly the rows whose instant lies in [1st of month, 1st of next month) |
| Monthly.Summarise | app/api/resumo-mensal/route.ts:39-51 | the buckets are exactly the raw truthy origem and destino names of the rows |
| Monthly.SummariseSpec | app/api/resumo-mensal/route.ts:34-51 | the buckets are exactly the raw truthy origem/destino strings; each holds Σ in, Σ out and their difference |
| Monthly.SummaryBalanced | app/api/resumo-mensal/route.ts:39-51 | in every bucket saldo = entradas − saidas |
| Monthly.SummaryNonNegative | app/api/resumo-mensal/route.ts:39-51 | with non-negative quantities no bucket has negative entradas or saidas |
| Monthly.MonthlySummary | app/api/resumo-mensal/route.ts:6-61 | errors as the period check; otherwise the buckets are the names of the month's rows |
| Monthly.MonthlySummaryFlows | app/api/resumo-mensal/route.ts:20-51 | each bucket is the flow of that exact name within the month |
| TypeSummary.SummariseByTypeSpec | app/api/resumo-mensal-por-tipo/route.ts:32-44 | the buckets are exactly the stored types of the rows; each holds Σ in, Σ out and their difference |
| TypeSummary.SummariseByType | app/api/resumo-mensal-por-tipo/route.ts:34-44 | the buckets are exactly the stored types of the rows |
| TypeSummary.SummariseByTypeAt | app/api/resumo-mensal-por-tipo/route.ts:34-44 | the bucket of one type holds Σ in, Σ out and their difference over that type's rows |
| TypeSummary.EndlessRowOpensBucket | app/api/resumo-mensal-por-tipo/route.ts:35 | a row with neither end set still opens its type's bucket and changes no amount |
| TypeSummary.TransferKeepsTypeSaldo | app/api/resumo-mensal-por-tipo/route.ts:36-43 | a transfer with both ends set raises entradas and saidas of its type alike and leaves saldo |
| TypeSummary.TypeSummaryOf | app/api/resumo-mensal-por-tipo/route.ts:6-46 | errors as the period check; otherwise the keys are the month's types and saldo = entradas − saidas in every bucket |
| Comparison.CheckYear | app/api/comparativo-mensal/route.ts:9-16 | 400 "Ano obrigatório" iff the year is missing, 0 or NaN; an infinite year fails the query (500) |
| Comparison.Comparativo | app/api/comparativo-mensal/route.ts:18-36 | exactly 12 entries, mes = 1..12 in order, each the net of that month's rows |
| Comparison.TransferNetsZero | app/api/comparativo-mensal/route.ts:31-32 | a row with both ends set contributes 0 |
| Comparison.WindowsDisjoint | app/api/comparativo-mensal/route.ts:21-26 | a row lies in at most one month window |
| Comparison.YearNet | app/api/comparativo-mensal/route.ts:18-36 | the twelve saldos add up to the net of every row of the calendar year |
| Suppliers.NormNome | app/api/fornecedores/route.ts:7-12 | the normalised name is trimmed and has only single blanks between words; its other characters are exactly the name's non-space characters, lower-cased, in order |
| Suppliers.NormNomeWords | app/api/fornecedores/route.ts:7-12 | the words of the normalised name are the name's words, each lower-cased |
| Suppliers.NormNomeSameWords | app/api/fornecedores/route.ts:7-12 | two names get the same normalised name exactly when their words agree up to case, so white space matters only as a word boundary |
| Suppliers.WordBoundariesSeparate | app/api/fornecedores/route.ts:7-12 | names with the same letters but a word boundary in another place ("ab c", "a bc") stay two suppliers |
| Suppliers.NormNomeSeparates | app/api/fornecedores/route.ts:7-12 | names whose non-space characters differ other than in case get different normalised names, so they stay two suppliers |
| Suppliers.NormNomeIdempotent | app/api/fornecedores/route.ts:7-12 | normalising twice is normalising once |
| Suppliers.NormNomeIgnoresCase | app/api/fornecedores/route.ts:7-12 | names that differ only in case normalise alike |
| Suppliers.Post | app/api/fornecedores/route.ts:38-75 | 400 iff the trimmed name is empty; a non-blank name whose norm is registered is answered Ok with that row, the table unchanged; 500 exactly when the norm is new and the new row's id is taken; otherwise exactly one new row {trimmed name, its norm} is appended |
| Suppliers.PostKeepsValid | app/api/fornecedores/route.ts:50-67 | a successful POST keeps ids and normalised names unique |
| Suppliers.PostIdempotent | app/api/fornecedores/route.ts:50-60 | posting the same name again leaves the table and answers the same row |
| Suppliers.PostMergesSpellings | app/api/fornecedores/route.ts:50-60 | names that normalise alike register as one supplier |
| Suppliers.Put | app/api/fornecedores/route.ts:81-159 | 400 iff the new name is blank; 409 iff another row (any row without an id) holds the new norm; past those checks a failed target lookup is answered with exactly that lookup's error; otherwise only the target's name and norm change |
| Suppliers.Target | app/api/fornecedores/route.ts:111-157 | with an id: the row with that id, or 500 iff no row has it; without one: 400 iff the old name is blank, 404 iff no row holds its norm, otherwise the row that does |
| Suppliers.PutKeepsValid | app/api/fornecedores/route.ts:95-120 | a successful PUT keeps normalised names unique |
| Suppliers.PutChangesOnlyTarget | app/api/fornecedores/route.ts:111-151 | a successful PUT keeps every id and leaves every row but the target unchanged |
| History.Filter | app/api/historico/route.ts:19-51 | a row is listed iff it is in the ledger and matches type, area and both inclusive bounds, and each matching row is listed exactly as many times as the ledger holds it |
| History.MatchesNarrows | app/api/historico/route.ts:19-36 | each parameter only narrows the `where` object: dropping the type, the area or either date bound keeps every row that matched |
| History.SortNewestFirst | app/api/historico/route.ts:38-40 | the output is newest first and a permutation of the input |
| History.Historico | app/api/historico/route.ts:10-60 | 500 iff a date is unreadable; otherwise the matching rows, newest first |
| History.HistoricoIsMatchingRows | app/api/historico/route.ts:19-51 | every returned row is an unchanged matching ledger row, and every matching row is returned as many times as the ledger holds it |
| History.EmptyQueryMatchesAll | app/api/historico/route.ts:21-36 | absent or empty parameters add no constraint |
| History.BoundsInclusive | app/api/historico/route.ts:32-36 | a row stamped exactly at both bounds is returned |
| History.EntradaMatchesByDestino | app/api/historico/route.ts:25-30 | an entrada matches an area filter by its destino only |
| Export.ToDado | app/api/historico/export/route.ts:53-61 | a null origem shows "ENTRADA", a null supplier or note shows "", the other columns are the row's |
| Export.Values | app/api/historico/export/route.ts:67-68 | seven values; the quantity column reads back as the quantity; the destino column is "null" exactly when the destino is missing or is itself "null" |
| Export.Quote | app/api/historico/export/route.ts:68 | unquoting the quoted value gives the value back, with nothing left over |
| Export.Line | app/api/historico/export/route.ts:66-69 | a line is empty iff it has no values |
| Export.Csv | app/api/historico/export/route.ts:63-71 | the text is empty iff there are no rows |
| Export.ParseQuotedQuote | app/api/historico/export/route.ts:66-69 | unquoting a quoted value (quotes doubled) recovers the value exactly |
| Export.ParseLineLine | app/api/historico/export/route.ts:66-70 | a `;`-joined line of quoted values parses back to those values |
| Export.CsvParsesBack | app/api/historico/export/route.ts:63-71 | the CSV text parses back to exactly one line of seven values per row, in order, after the header |
| Export.Export | app/api/historico/export/route.ts:8-102 | 500 iff a date is unreadable; CSV iff `formato` is absent or "csv"; either way the rows are the history route's rows, in its order |
| Text.TrimSpec | app/lib/calcularSaldo.ts:9 | `trim()` cuts only white space from the ends and empties exactly the blank strings |
| Text.Trim | app/lib/calcularSaldo.ts:9 | the result is trimmed and no longer than the input |
| Text.NonSpaceTrim | app/lib/calcularSaldo.ts:9 | `trim()` keeps every non-space character, in order |
| Text.Lower | app/lib/calcularSaldo.ts:9 | the length is kept |
| Text.NonSpaceLower | app/lib/calcularSaldo.ts:9 | `toLowerCase()` keeps white space and lower-cases every other character, in order |
| Text.TrimUpper | app/api/movimentacoes/route.ts:34-36 | `trim()` and `toUpperCase()` commute |
| Text.Upper | app/api/movimentacoes/route.ts:34-36 | the length is kept |
| Text.UpperAt | app/api/movimentacoes/route.ts:34-36 | each character is upper-cased on its own |
| Text.CollapseSpacesCollapsed | app/api/fornecedores/route.ts:10 | after `replace(/\s+/g, " ")` every white-space character is one blank followed by a non-space |
| Text.CollapseSpaces | app/api/fornecedores/route.ts:10 | empty iff the input is, no longer than it, starts with white space iff the input does, and keeps every non-space character in order |
| Text.CollapseSpacesWords | app/api/fornecedores/route.ts:10 | collapsing keeps the words, so each run of white space between two words becomes exactly one blank, in the same place |
| Text.Words | app/api/fornecedores/route.ts:10 | the words of a string, read one character at a time: none exactly for a blank string, and each one non-empty and free of white space |
| Text.WordsTrim | app/lib/calcularSaldo.ts:9 | `trim()` keeps the words |
| Text.WordsLower | app/api/fornecedores/route.ts:11 | `toLowerCase()` keeps the word boundaries and lower-cases each word |
| Text.TidyByWords | app/api/fornecedores/route.ts:9-10 | a trimmed string with no run of white space is determined by its words |
| Text.StripAccents | app/saldos/page.tsx:21-22 | the result is accent-free, no longer than the input, and equal to it when it was already accent-free |
| Text.IntToString | app/api/historico/export/route.ts:68 | `String(n)` is non-empty and starts with "-" iff n is negative |
| Text.IntToStringReadsBack | app/api/historico/export/route.ts:68 | `String(n)` reads back as n, so no two quantities print alike |
| Ledger.InMonthIsMonthTag | app/api/resumo-mensal/route.ts:20-26 | the half-open window [1st of month, 1st of next) holds exactly the instants of that calendar month |

## Left out

- Number parsing: `Number(…)` of a request field is the input `Num`, which is a finite integer, NaN or ±Infinity. Fractional quantities and `Math.trunc` of them are not modelled.
- Transfer.Admit: the row is created with `Math.trunc(quantidade)`, which is the quantity itself for the integer quantities modelled here.
- Case mapping covers ASCII and the Latin-1 letters (plus ÿ ↔ Ÿ). Characters whose upper case is longer (ß) or lies outside Latin-1 (µ) are treated as caseless. NFD stripping covers the precomposed Latin-1 letters and the U+0300..U+036F marks.
- Dates: `new Date(…)` parsing, time zones and `toLocaleString("pt-BR")` are not modelled. An instant is a calendar-month index plus an offset. A date parameter is absent, readable or unreadable. The export's date text is a function parameter.
- Ties in `createdAt`: rows with the same instant come back in no promised order, and the model promises none.
- Database and HTTP: reads are the ledger passed in, and writes return the new row or table. Status codes and messages are kept; JSON framing and headers are not.
- The guard's read-then-write race between concurrent transfers: admission is modelled as one atomic step.
- The Excel export and report: the workbook bytes `XLSX.write` produces stand as the list of rows they encode. The ExcelJS report (`app/api/relatorios/excel/route.ts`) is represented only by its farol thresholds.
- `GET /api/fornecedores` (a list ordered by `localeCompare`) and the page's `tipos` sort: locale collation is not modelled.
- JavaScript object key order for the summary objects: buckets are maps.
- Monthly.Summarise: the source keeps its buckets in a plain `{}` object. A name that is a member of `Object.prototype` (`constructor`, `toString`, `valueOf`, `hasOwnProperty`, `__proto__` and the rest) finds the inherited member, so `??=` opens no bucket. The increments then land on that member, or on `Object.prototype` itself for `__proto__`, and the response has no such bucket. The model's map keeps a bucket for every name. A saida's destino keeps the supplier's own spelling, so such names can reach the summary.
- Monthly.SummariseSpec: claims a bucket for every name, including the `Object.prototype` member names that the source drops (see Monthly.Summarise).
- Monthly.MonthlySummary: its key set includes the `Object.prototype` member names that the source drops (see Monthly.Summarise).
- Monthly.MonthlySummaryFlows: for an `Object.prototype` member name the source shows no bucket, while the model shows its flow (see Monthly.Summarise).
- TypeSummary.SummariseByType: the same inherited-name gap for stored types: a saida's type is trimmed but not upper-cased, so a type such as "constructor" opens no bucket in the source (see Monthly.Summarise).
- TypeSummary.SummariseByTypeSpec: claims a bucket for every stored type, including the `Object.prototype` member names that the source drops (see TypeSummary.SummariseByType).
- TypeSummary.SummariseByTypeAt: for an `Object.prototype` member name the source shows no bucket, while the model shows its flow (see TypeSummary.SummariseByType).
- TypeSummary.TypeSummaryOf: its key set includes the `Object.prototype` member names that the source drops (see TypeSummary.SummariseByType).
- TypeSummary.EndlessRowOpensBucket: a row whose type is an `Object.prototype` member name opens no bucket in the source (see TypeSummary.SummariseByType).
- Supplier ids: the id a new row receives is a parameter.
- Movement ids: a ledger row carries no `id`, so two rows alike in every modelled field are one value; the history and export contracts count such rows by multiplicity, which is how `findMany` returns them.
- `app/api/kpi-giro/route.ts`: it rests on floating-point division and rounding.
- `app/api/lojas/route.ts`: a bare read.
- The React pages, the layout and the JSX of the dashboard and farol.
- BalanceGrid.Grid: being a read, it leaves the ledger unchanged and is deterministic by construction; no separate lemma states this.

## Findings

| source | as written | input that shows it | evidently intended | confidence | as-written member | corrected member |
|---|---|---|---|---|---|---|
| app/saldos/page.tsx:82-85 | cards look up `saldo[AREAS[i].toUpperCase()]`, but `add` stores keys through `norm`, which strips accents | any ledger with an entrada of 10 to "Produção": its cell is stored under "PRODUCAO", while the card reads "PRODUÇÃO" and shows 0 | each card reads the cells stored under `norm` of its area name | not executed | Dashboard.AccentedCardsReadEmpty | Dashboard.CardTotals |
| app/saldos/page.tsx:143-146 | the farol receives the card's upper-cased name and shows only for the exact string "Logística Reversa" | the card "LOGISTICA REVERSA" (any balance): the component returns nothing, and no card ever shows the light | the light shows on the Logística Reversa card, with names compared under `norm` | not executed | Dashboard.FarolHiddenOnEveryCard | Dashboard.CorrectedFarolOnReverseLogistics |

=== FILE: balance_grid.dfy ===
/**
 * `GET /api/saldos`: the balance of every fixed area for every fixed pallet
 * type, each cell a `calcularSaldo` over the whole ledger. It only reads.
 */
module BalanceGrid {
  import opened Wrappers
  import opened Text
  import opened Ledger
  import opened Saldo
  import Entry

  /** The warehouse areas, in the order of the response. */
  const AREAS_CD: seq<string> :=
    ["LOGISTICA REVERSA", "PRODUÇÃO", "FLV", "MERCEARIA", "FRIGORIFICO", "FRIGO HORTOLÂNDIA", "RECEBIMENTO"]

  /** The pallet types, the keys of every `saldos` object. */
  const TIPOS_PALETE: seq<string> := ["PBR", "CHEP", "DESCARTÁVEL", "GAIOLA"]

  /** One element of the response: an area and its balance per type. */
  datatype AreaBalances = AreaBalances(area: string, saldos: map<string, int>)

  function BalancesOf(ledger: seq<Movement>, area: string): (r: map<string, int>)
    ensures r.Keys == set t | t in TIPOS_PALETE
  {
    map t | t in TIPOS_PALETE :: Balance(ledger, area, t)
  }

  /** The grid: one entry per area in `AREAS_CD` order, four balances each. */
  function Grid(ledger: seq<Movement>): (r: seq<AreaBalances>)
    ensures |r| == |AREAS_CD|
    ensures forall i :: 0 <= i < |r| ==> r[i].area == AREAS_CD[i]
    ensures forall i :: 0 <= i < |r| ==> r[i].saldos.Keys == set t | t in TIPOS_PALETE
    ensures forall i, t :: 0 <= i < |r| && t in TIPOS_PALETE ==> r[i].saldos[t] == Balance(ledger, AREAS_CD[i], t)
  {
    seq(|AREAS_CD|, i requires 0 <= i < |AREAS_CD| => AreaBalances(AREAS_CD[i], BalancesOf(ledger, AREAS_CD[i])))
  }

  /** Every fixed area has a non-blank name. */
  lemma AreasNamed(i: int)
    requires 0 <= i < |AREAS_CD|
    ensures Norm(Some(AREAS_CD[i])) != []
  {
    var a := AREAS_CD[i];
    assert 'A' <= a[0] <= 'Z';
    NotBlank(a);
  }

  /**
   * Registering an entrada raises exactly the cells whose area and type
   * normalise like the request's, each by the entrada's quantity.
   */
  lemma GridAfterEntrada(ledger: seq<Movement>, req: Entry.Request, now: Instant)
    requires Entry.Register(req, now).Ok?
    ensures var before, after := Grid(ledger), Grid(ledger + [Entry.Register(req, now).value]);
      forall i, t :: 0 <= i < |AREAS_CD| && t in TIPOS_PALETE ==>
        after[i].saldos[t] == before[i].saldos[t]
          + (if Norm(Some(AREAS_CD[i])) == Norm(req.area) && Norm(Some(t)) == Norm(req.tipoPalete)
             then req.quantidade.value else 0)
  {
    forall i, t | 0 <= i < |AREAS_CD| && t in TIPOS_PALETE
      ensures Balance(ledger + [Entry.Register(req, now).value], AREAS_CD[i], t)
           == Balance(ledger, AREAS_CD[i], t)
              + (if Norm(Some(AREAS_CD[i])) == Norm(req.area) && Norm(Some(t)) == Norm(req.tipoPalete)
                 then req.quantidade.value else 0)
    {
      AreasNamed(i);
      Entry.RegisteredEntradaCredits(ledger, req, now, AREAS_CD[i], t);
    }
  }
}

=== FILE: comparison.dfy ===
/**
 * `GET /api/comparativo-mensal`: the net movement of every month of one
 * year, January to December.
 */
module Comparison {
  import opened Wrappers
  import opened Ledger
  import opened Monthly

  /** The year check: `!ano` answers 400; an infinite year makes the first query fail, answered 500. */
  function CheckYear(ano: Num): (r: Result<int, PeriodError>)
    ensures r == Err(MissingPeriod("Ano obrigatório")) <==> !ano.Truthy()
    ensures r == Err(QueryFailure("Erro ao gerar comparativo mensal")) <==> ano == Infinity(true) || ano == Infinity(false)
    ensures r.Ok? <==> ano.Finite? && ano.value != 0
    ensures r.Ok? ==> r.value == ano.value
  {
    if !ano.Truthy() then Err(MissingPeriod("Ano obrigatório"))
    else if !ano.IsFinite() then Err(QueryFailure("Erro ao gerar comparativo mensal"))
    else Ok(ano.value)
  }

  /** What one row adds to its month: + quantity with a truthy destino, − with a truthy origem. */
  function NetShare(m: Movement): int {
    (if Present(m.destino) then m.quantidade else 0) - (if Present(m.origem) then m.quantidade else 0)
  }

  /** The `reduce` of one month: the net of a list of rows. */
  function Net(rows: seq<Movement>): int {
    if rows == [] then 0 else Net(rows[..|rows| - 1]) + NetShare(rows[|rows| - 1])
  }

  /** One element of the response. */
  datatype MonthSaldo = MonthSaldo(mes: int, saldo: int)

  /** `GET /api/comparativo-mensal`: the twelve months of the year, in order. */
  function Comparativo(ledger: seq<Movement>, ano: Num): (r: Result<seq<MonthSaldo>, PeriodError>)
    ensures r.Err? <==> CheckYear(ano).Err?
    ensures r.Err? ==> r.error == CheckYear(ano).error
    ensures r.Ok? ==> |r.value| == 12
    ensures r.Ok? ==> forall i :: 0 <= i < 12 ==> r.value[i].mes == i + 1
    ensures r.Ok? ==> forall i :: 0 <= i < 12 ==> r.value[i].saldo == Net(Window(ledger, ano.value, i + 1))
  {
    match CheckYear(ano)
    case Err(e) => Err(e)
    case Ok(y) => Ok(seq(12, i requires 0 <= i < 12 => MonthSaldo(i + 1, Net(Window(ledger, y, i + 1)))))
  }

  /** A transfer with both ends set adds nothing to its month. */
  lemma TransferNetsZero(rows: seq<Movement>, m: Movement)
    requires Present(m.origem) && Present(m.destino)
    ensures Net(rows + [m]) == Net(rows)
  {
    assert (rows + [m])[..|rows|] == rows;
  }

  /** The month windows of a year are disjoint: a row counts in at most one month. */
  lemma WindowsDisjoint(t: Instant, ano: int, mes1: int, mes2: int)
    requires InMonth(t, ano, mes1) && InMonth(t, ano, mes2)
    ensures mes1 == mes2
  {
    InMonthIsMonthTag(t, ano, mes1);
    InMonthIsMonthTag(t, ano, mes2);
  }

  /** The rows of the first `n` months of the year. */
  function FirstMonths(ledger: seq<Movement>, ano: int, n: int): seq<Movement> {
    if ledger == [] then []
    else
      var m := ledger[|ledger| - 1];
      var first := 12 * CalendarYear(ano);
      FirstMonths(ledger[..|ledger| - 1], ano, n) + (if first <= m.createdAt.month < first + n then [m] else [])
  }

  lemma {:induction false} FirstMonthsSplit(ledger: seq<Movement>, ano: int, n: nat)
    ensures Net(FirstMonths(ledger, ano, n + 1)) == Net(FirstMonths(ledger, ano, n)) + Net(Window(ledger, ano, n + 1))
  {
    if ledger != [] {
      var prefix, m := ledger[..|ledger| - 1], ledger[|ledger| - 1];
      var first := 12 * CalendarYear(ano);
      FirstMonthsSplit(prefix, ano, n);
      InMonthIsMonthTag(m.createdAt, ano, n + 1);
      if first <= m.createdAt.month < first + n {
        NetAppend(FirstMonths(prefix, ano, n + 1), m);
        NetAppend(FirstMonths(prefix, ano, n), m);
        assert Window(ledger, ano, n + 1) == Window(prefix, ano, n + 1);
      } else if m.createdAt.month == first + n {
        NetAppend(FirstMonths(prefix, ano, n + 1), m);
        NetAppend(Window(prefix, ano, n + 1), m);
        assert FirstMonths(ledger, ano, n) == FirstMonths(prefix, ano, n);
      } else {
        assert FirstMonths(ledger, ano, n + 1) == FirstMonths(prefix, ano, n + 1);
        assert FirstMonths(ledger, ano, n) == FirstMonths(prefix, ano, n);
        assert Window(ledger, ano, n + 1) == Window(prefix, ano, n + 1);
      }
    }
  }

  lemma NetAppend(rows: seq<Movement>, m: Movement)
    ensures Net(rows + [m]) == Net(rows) + NetShare(m)
  {
    assert (rows + [m])[..|rows|] == rows;
  }

  /** Σ of the monthly saldos. */
  function SumSaldos(months: seq<MonthSaldo>): int {
    if months == [] then 0 else SumSaldos(months[..|months| - 1]) + months[|months| - 1].saldo
  }

  lemma {:induction false} SumFirstMonths(ledger: seq<Movement>, ano: Num, n: nat)
    requires Comparativo(ledger, ano).Ok? && n <= 12
    ensures SumSaldos(Comparativo(ledger, ano).value[..n]) == Net(FirstMonths(ledger, ano.value, n))
  {
    var r := Comparativo(ledger, ano).value;
    if n == 0 {
      NoMonthsNoRows(ledger, ano.value);
    } else {
      assert r[..n][..n - 1] == r[..n - 1];
      SumFirstMonths(ledger, ano, n - 1);
      FirstMonthsSplit(ledger, ano.value, n - 1);
    }
  }

  lemma {:induction false} NoMonthsNoRows(ledger: seq<Movement>, ano: int)
    ensures FirstMonths(ledger, ano, 0) == []
  {
    if ledger != [] {
      NoMonthsNoRows(ledger[..|ledger| - 1], ano);
    }
  }

  /** The twelve saldos add up to the net of every row of the calendar year. */
  lemma YearNet(ledger: seq<Movement>, ano: Num)
    requires Comparativo(ledger, ano).Ok?
    ensures SumSaldos(Comparativo(ledger, ano).value) == Net(FirstMonths(ledger, ano.value, 12))
  {
    SumFirstMonths(ledger, ano, 12);
    assert Comparativo(ledger, ano).value[..12] == Comparativo(ledger, ano).value;
  }
}

=== FILE: dashboard.dfy ===
/**
 * The dashboard page `app/saldos/page.tsx`: its own fold of the `Entrada`
 * and `Movimentacao` rows into an area × type table keyed by accent-stripped
 * upper-case names, the per-area cards and the overall total.
 *
 * The page's object of objects is modelled as the list of its cells in
 * insertion order, at most one per (area, type).
 */
module Dashboard {
  import opened Wrappers
  import opened Text
  import opened Ledger
  import Farol
  import BalanceGrid

  /** The page's `norm`: trim, upper-case, then drop accents. */
  function Key(s: string): (r: string)
    ensures AccentFree(r)
  {
    StripAccents(Upper(Trim(s)))
  }

  /** `saldo[area][tipo] = value`. */
  datatype Cell = Cell(area: string, tipo: string, value: int)

  /** One row of the `Entrada` table. */
  datatype EntradaRow = EntradaRow(area: string, tipoPalete: string, quantidade: int)

  /** `saldo[a]?.[t] ?? 0`. */
  function Lookup(tbl: seq<Cell>, a: string, t: string): int {
    if tbl == [] then 0
    else if tbl[0].area == a && tbl[0].tipo == t then tbl[0].value
    else Lookup(tbl[1..], a, t)
  }

  /** `saldo[a]`'s cells, in insertion order (`saldo[a] ?? {}`). */
  function Row(tbl: seq<Cell>, a: string): seq<Cell> {
    if tbl == [] then []
    else (if tbl[0].area == a then [tbl[0]] else []) + Row(tbl[1..], a)
  }

  /** `Object.values(cells).reduce((acc, n) => acc + n, 0)`. */
  function SumValues(cells: seq<Cell>): int {
    if cells == [] then 0 else cells[0].value + SumValues(cells[1..])
  }

  /** The sum of every cell of an area. */
  function AreaTotal(tbl: seq<Cell>, a: string): int {
    SumValues(Row(tbl, a))
  }

  /** No two cells share an (area, type). */
  predicate KeysUnique(tbl: seq<Cell>) {
    forall i, j :: 0 <= i < j < |tbl| ==> tbl[i].area != tbl[j].area || tbl[i].tipo != tbl[j].tipo
  }

  /** Every area key is accent-free, as the page's `norm` makes it. */
  predicate AreasAccentFree(tbl: seq<Cell>) {
    forall i :: 0 <= i < |tbl| ==> AccentFree(tbl[i].area)
  }

  /** The (area, type) pairs that have a cell. */
  function KeySet(tbl: seq<Cell>): set<(string, string)> {
    set c | c in tbl :: (c.area, c.tipo)
  }

  lemma AreaTotalCons(x: Cell, rest: seq<Cell>, a: string)
    ensures AreaTotal([x] + rest, a) == (if x.area == a then x.value else 0) + AreaTotal(rest, a)
  {
    assert ([x] + rest)[1..] == rest;
    var R := Row(rest, a);
    if x.area == a {
      assert ([x] + R)[1..] == R;
    } else {
      assert [] + R == R;
    }
  }

  lemma KeySetCons(x: Cell, rest: seq<Cell>)
    ensures KeySet([x] + rest) == {(x.area, x.tipo)} + KeySet(rest)
  {
    forall k | k in KeySet([x] + rest) ensures k in {(x.area, x.tipo)} + KeySet(rest) {
      var c :| c in [x] + rest && k == (c.area, c.tipo);
      if c != x { assert c in rest; }
    }
    forall k | k in KeySet(rest) ensures k in KeySet([x] + rest) {
      var c :| c in rest && k == (c.area, c.tipo);
      assert c in [x] + rest;
    }
    assert x in [x] + rest;
  }

  /** `saldo[a][t] = (saldo[a][t] ?? 0) + q`, creating the cell when missing. */
  function Bump(tbl: seq<Cell>, a: string, t: string, q: int): (r: seq<Cell>)
    ensures r != []
  {
    if tbl == [] then [Cell(a, t, q)]
    else if tbl[0].area == a && tbl[0].tipo == t then
      [tbl[0].(value := tbl[0].value + q)] + tbl[1..]
    else
      [tbl[0]] + Bump(tbl[1..], a, t, q)
  }

  /** Bumping changes the one looked-up cell by `q` and no other. */
  lemma {:induction false} BumpLookup(tbl: seq<Cell>, a: string, t: string, q: int, a': string, t': string)
    ensures Lookup(Bump(tbl, a, t, q), a', t') == Lookup(tbl, a', t') + (if a' == a && t' == t then q else 0)
  {
    if tbl != [] && !(tbl[0].area == a && tbl[0].tipo == t) {
      BumpLookup(tbl[1..], a, t, q, a', t');
    }
  }

  /** Bumping adds `q` to the total of its area and leaves the other areas' totals. */
  lemma {:induction false} BumpAreaTotal(tbl: seq<Cell>, a: string, t: string, q: int, a': string)
    ensures AreaTotal(Bump(tbl, a, t, q), a') == AreaTotal(tbl, a') + (if a' == a then q else 0)
  {
    if tbl == [] {
      AreaTotalCons(Cell(a, t, q), [], a');
      assert [Cell(a, t, q)] + [] == [Cell(a, t, q)];
    } else if tbl[0].area == a && tbl[0].tipo == t {
      assert tbl == [tbl[0]] + tbl[1..];
      AreaTotalCons(tbl[0], tbl[1..], a');
      AreaTotalCons(tbl[0].(value := tbl[0].value + q), tbl[1..], a');
    } else {
      assert tbl == [tbl[0]] + tbl[1..];
      AreaTotalCons(tbl[0], tbl[1..], a');
      AreaTotalCons(tbl[0], Bump(tbl[1..], a, t, q), a');
      BumpAreaTotal(tbl[1..], a, t, q, a');
    }
  }

  /** Bumping adds the key and keeps every other cell's area. */
  lemma {:induction false} BumpKeys(tbl: seq<Cell>, a: string, t: string, q: int)
    ensures KeySet(Bump(tbl, a, t, q)) == KeySet(tbl) + {(a, t)}
    ensures forall c :: c in Bump(tbl, a, t, q) ==> c in tbl || c.area == a
  {
    if tbl != [] {
      var r := Bump(tbl, a, t, q);
      assert tbl == [tbl[0]] + tbl[1..];
      KeySetCons(tbl[0], tbl[1..]);
      if tbl[0].area == a && tbl[0].tipo == t {
        KeySetCons(r[0], tbl[1..]);
        forall c | c in r ensures c in tbl || c.area == a {
          if c != r[0] { assert c in tbl[1..]; }
        }
      } else {
        BumpKeys(tbl[1..], a, t, q);
        KeySetCons(tbl[0], Bump(tbl[1..], a, t, q));
        forall c | c in r ensures c in tbl || c.area == a {
          if c != r[0] { assert c in Bump(tbl[1..], a, t, q); }
        }
      }
    }
  }

  /** Bumping never creates a second cell for an (area, type). */
  lemma {:induction false} BumpKeepsUnique(tbl: seq<Cell>, a: string, t: string, q: int)
    requires KeysUnique(tbl)
    ensures KeysUnique(Bump(tbl, a, t, q))
  {
    if tbl != [] {
      var r := Bump(tbl, a, t, q);
      if tbl[0].area == a && tbl[0].tipo == t {
        assert r[1..] == tbl[1..];
      } else {
        BumpKeepsUnique(tbl[1..], a, t, q);
        BumpKeys(tbl[1..], a, t, q);
        assert r == [tbl[0]] + Bump(tbl[1..], a, t, q);
        forall j | 1 <= j < |r|
          ensures r[0].area != r[j].area || r[0].tipo != r[j].tipo
        {
          assert r[j] in Bump(tbl[1..], a, t, q);
          assert (r[j].area, r[j].tipo) in KeySet(Bump(tbl[1..], a, t, q));
          if (r[j].area, r[j].tipo) in KeySet(tbl[1..]) {
            var c :| c in tbl[1..] && (c.area, c.tipo) == (r[j].area, r[j].tipo);
            var k :| 0 <= k < |tbl[1..]| && tbl[1..][k] == c;
            assert tbl[k + 1] == c;
          }
        }
      }
    }
  }

  /** `add`, which ignores blank keys and non-finite quantities. */
  function Add(tbl: seq<Cell>, area: string, tipo: string, qtd: Num): (r: seq<Cell>)
    ensures Key(area) == [] || Key(tipo) == [] || !qtd.IsFinite() ==> r == tbl
    ensures Key(area) != [] && Key(tipo) != [] && qtd.IsFinite() ==> r == Bump(tbl, Key(area), Key(tipo), qtd.value)
  {
    var a := Key(area);
    var t := Key(tipo);
    if a == [] || t == [] || !qtd.IsFinite() then tbl
    else Bump(tbl, a, t, qtd.value)
  }

  /** `add` moves exactly the one cell of the normalised (area, type), by the quantity. */
  lemma AddLookup(tbl: seq<Cell>, area: string, tipo: string, qtd: Num, a': string, t': string)
    ensures Lookup(Add(tbl, area, tipo, qtd), a', t') == Lookup(tbl, a', t')
      + (if Key(area) != [] && Key(tipo) != [] && qtd.IsFinite() && a' == Key(area) && t' == Key(tipo)
         then qtd.value else 0)
  {
    if Key(area) != [] && Key(tipo) != [] && qtd.IsFinite() {
      BumpLookup(tbl, Key(area), Key(tipo), qtd.value, a', t');
    }
  }

  /** `add` moves the total of the normalised area by the quantity and no other total. */
  lemma AddAreaTotal(tbl: seq<Cell>, area: string, tipo: string, qtd: Num, a': string)
    ensures AreaTotal(Add(tbl, area, tipo, qtd), a') == AreaTotal(tbl, a')
      + (if Key(area) != [] && Key(tipo) != [] && qtd.IsFinite() && a' == Key(area) then qtd.value else 0)
  {
    if Key(area) != [] && Key(tipo) != [] && qtd.IsFinite() {
      BumpAreaTotal(tbl, Key(area), Key(tipo), qtd.value, a');
    }
  }

  /** `add` keeps one cell per key and accent-free area keys. */
  lemma AddInvariant(tbl: seq<Cell>, area: string, tipo: string, qtd: Num)
    requires KeysUnique(tbl) && AreasAccentFree(tbl)
    ensures KeysUnique(Add(tbl, area, tipo, qtd)) && AreasAccentFree(Add(tbl, area, tipo, qtd))
  {
    if Key(area) != [] && Key(tipo) != [] && qtd.IsFinite() {
      BumpKeepsUnique(tbl, Key(area), Key(tipo), qtd.value);
      BumpKeys(tbl, Key(area), Key(tipo), qtd.value);
    }
  }

  /** The `entradas` loop: every `Entrada` row credits its area, in table order. */
  function AddEntradas(tbl: seq<Cell>, es: seq<EntradaRow>): (r: seq<Cell>)
    ensures es == [] ==> r == tbl
  {
    if es == [] then tbl
    else
      var e := es[|es| - 1];
      Add(AddEntradas(tbl, es[..|es| - 1]), e.area, e.tipoPalete, Finite(e.quantidade))
  }

  /** One pass of the `movimentacoes` loop: one movement credits its destination and, when it has one, debits its origin. */
  function AddMovement(tbl: seq<Cell>, m: Movement): seq<Cell> {
    var credited := Add(tbl, OrEmpty(m.destino), m.tipoPalete, Finite(m.quantidade));
    if Present(m.origem) then Add(credited, m.origem.value, m.tipoPalete, Finite(-m.quantidade))
    else credited
  }

  /** The `movimentacoes` loop: every movement in table order. */
  function AddMovements(tbl: seq<Cell>, ms: seq<Movement>): (r: seq<Cell>)
    ensures ms == [] ==> r == tbl
  {
    if ms == [] then tbl
    else AddMovement(AddMovements(tbl, ms[..|ms| - 1]), ms[|ms| - 1])
  }

  /** The `saldo` table of the page: the page's table, entradas first, then movements. */
  function Saldo(es: seq<EntradaRow>, ms: seq<Movement>): (r: seq<Cell>)
    ensures KeysUnique(r) && AreasAccentFree(r)
  {
    EntradasInvariant([], es);
    MovementsInvariant(AddEntradas([], es), ms);
    AddMovements(AddEntradas([], es), ms)
  }

  /** What one `Entrada` row adds to the cell (a, t): its quantity when its names normalise to them. */
  function EntradaShare(e: EntradaRow, a: string, t: string): int {
    if Key(e.area) == a && Key(e.tipoPalete) == t then e.quantidade else 0
  }

  /** What one movement adds to the cell (a, t): + quantity as destination, − quantity as a present origin. */
  function MovementShare(m: Movement, a: string, t: string): int {
    (if Key(OrEmpty(m.destino)) == a && Key(m.tipoPalete) == t then m.quantidade else 0)
    - (if Present(m.origem) && Key(m.origem.value) == a && Key(m.tipoPalete) == t then m.quantidade else 0)
  }

  /** Σ of the shares of the `Entrada` rows in the cell (a, t). */
  function EntradaSum(es: seq<EntradaRow>, a: string, t: string): int {
    if es == [] then 0 else EntradaSum(es[..|es| - 1], a, t) + EntradaShare(es[|es| - 1], a, t)
  }

  /** Σ of the shares of the movements in the cell (a, t). */
  function MovementSum(ms: seq<Movement>, a: string, t: string): int {
    if ms == [] then 0 else MovementSum(ms[..|ms| - 1], a, t) + MovementShare(ms[|ms| - 1], a, t)
  }

  lemma {:induction false} EntradasLookup(tbl: seq<Cell>, es: seq<EntradaRow>, a: string, t: string)
    requires a != [] && t != []
    ensures Lookup(AddEntradas(tbl, es), a, t) == Lookup(tbl, a, t) + EntradaSum(es, a, t)
  {
    if es != [] {
      var e := es[|es| - 1];
      EntradasLookup(tbl, es[..|es| - 1], a, t);
      AddLookup(AddEntradas(tbl, es[..|es| - 1]), e.area, e.tipoPalete, Finite(e.quantidade), a, t);
    }
  }

  /** One movement moves the cell (a, t) by its share. */
  lemma MovementLookup(tbl: seq<Cell>, m: Movement, a: string, t: string)
    requires a != [] && t != []
    ensures Lookup(AddMovement(tbl, m), a, t) == Lookup(tbl, a, t) + MovementShare(m, a, t)
  {
    var credited := Add(tbl, OrEmpty(m.destino), m.tipoPalete, Finite(m.quantidade));
    AddLookup(tbl, OrEmpty(m.destino), m.tipoPalete, Finite(m.quantidade), a, t);
    if Present(m.origem) {
      AddLookup(credited, m.origem.value, m.tipoPalete, Finite(-m.quantidade), a, t);
    }
  }

  lemma {:induction false} MovementsLookup(tbl: seq<Cell>, ms: seq<Movement>, a: string, t: string)
    requires a != [] && t != []
    ensures Lookup(AddMovements(tbl, ms), a, t) == Lookup(tbl, a, t) + MovementSum(ms, a, t)
  {
    if ms != [] {
      MovementsLookup(tbl, ms[..|ms| - 1], a, t);
      MovementLookup(AddMovements(tbl, ms[..|ms| - 1]), ms[|ms| - 1], a, t);
    }
  }

  /**
   * Each cell of the page's table is the entradas of its normalised
   * (area, type) plus the movements into it minus those out of it.
   */
  lemma SaldoLookup(es: seq<EntradaRow>, ms: seq<Movement>, a: string, t: string)
    requires a != [] && t != []
    ensures Lookup(Saldo(es, ms), a, t) == EntradaSum(es, a, t) + MovementSum(ms, a, t)
  {
    EntradasLookup([], es, a, t);
    MovementsLookup(AddEntradas([], es), ms, a, t);
  }

  /** Σ over types of the `Entrada` rows of area `a`: rows with a blank type are skipped. */
  function EntradaAreaSum(es: seq<EntradaRow>, a: string): int {
    if es == [] then 0
    else
      var e := es[|es| - 1];
      EntradaAreaSum(es[..|es| - 1], a) + (if Key(e.area) == a && Key(e.tipoPalete) != [] then e.quantidade else 0)
  }

  /** Σ over types of the movements into area `a` minus those out of it. */
  function MovementAreaSum(ms: seq<Movement>, a: string): int {
    if ms == [] then 0 else MovementAreaSum(ms[..|ms| - 1], a) + MovementAreaShare(ms[|ms| - 1], a)
  }

  lemma {:induction false} EntradasAreaTotal(tbl: seq<Cell>, es: seq<EntradaRow>, a: string)
    requires a != []
    ensures AreaTotal(AddEntradas(tbl, es), a) == AreaTotal(tbl, a) + EntradaAreaSum(es, a)
  {
    if es != [] {
      var e := es[|es| - 1];
      EntradasAreaTotal(tbl, es[..|es| - 1], a);
      AddAreaTotal(AddEntradas(tbl, es[..|es| - 1]), e.area, e.tipoPalete, Finite(e.quantidade), a);
    }
  }

  /** What one movement adds to the total of area `a`. */
  function MovementAreaShare(m: Movement, a: string): int {
    (if Key(OrEmpty(m.destino)) == a && Key(m.tipoPalete) != [] then m.quantidade else 0)
    - (if Present(m.origem) && Key(m.origem.value) == a && Key(m.tipoPalete) != [] then m.quantidade else 0)
  }

  /** One movement moves the total of area `a` by its share. */
  lemma MovementAreaTotal(tbl: seq<Cell>, m: Movement, a: string)
    requires a != []
    ensures AreaTotal(AddMovement(tbl, m), a) == AreaTotal(tbl, a) + MovementAreaShare(m, a)
  {
    var credited := Add(tbl, OrEmpty(m.destino), m.tipoPalete, Finite(m.quantidade));
    AddAreaTotal(tbl, OrEmpty(m.destino), m.tipoPalete, Finite(m.quantidade), a);
    if Present(m.origem) {
      AddAreaTotal(credited, m.origem.value, m.tipoPalete, Finite(-m.quantidade), a);
    }
  }

  lemma {:induction false} MovementsAreaTotal(tbl: seq<Cell>, ms: seq<Movement>, a: string)
    requires a != []
    ensures AreaTotal(AddMovements(tbl, ms), a) == AreaTotal(tbl, a) + MovementAreaSum(ms, a)
  {
    if ms != [] {
      MovementsAreaTotal(tbl, ms[..|ms| - 1], a);
      MovementAreaTotal(AddMovements(tbl, ms[..|ms| - 1]), ms[|ms| - 1], a);
    }
  }

  /** The total of an area in the page's table is its net over every named type. */
  lemma SaldoAreaTotal(es: seq<EntradaRow>, ms: seq<Movement>, a: string)
    requires a != []
    ensures AreaTotal(Saldo(es, ms), a) == EntradaAreaSum(es, a) + MovementAreaSum(ms, a)
  {
    EntradasAreaTotal([], es, a);
    MovementsAreaTotal(AddEntradas([], es), ms, a);
  }

  lemma {:induction false} EntradasInvariant(tbl: seq<Cell>, es: seq<EntradaRow>)
    requires KeysUnique(tbl) && AreasAccentFree(tbl)
    ensures KeysUnique(AddEntradas(tbl, es)) && AreasAccentFree(AddEntradas(tbl, es))
  {
    if es != [] {
      var e := es[|es| - 1];
      EntradasInvariant(tbl, es[..|es| - 1]);
      AddInvariant(AddEntradas(tbl, es[..|es| - 1]), e.area, e.tipoPalete, Finite(e.quantidade));
    }
  }

  lemma MovementInvariant(tbl: seq<Cell>, m: Movement)
    requires KeysUnique(tbl) && AreasAccentFree(tbl)
    ensures KeysUnique(AddMovement(tbl, m)) && AreasAccentFree(AddMovement(tbl, m))
  {
    var credited := Add(tbl, OrEmpty(m.destino), m.tipoPalete, Finite(m.quantidade));
    AddInvariant(tbl, OrEmpty(m.destino), m.tipoPalete, Finite(m.quantidade));
    if Present(m.origem) {
      AddInvariant(credited, m.origem.value, m.tipoPalete, Finite(-m.quantidade));
      assert AddMovement(tbl, m) == Add(credited, m.origem.value, m.tipoPalete, Finite(-m.quantidade));
    } else {
      assert AddMovement(tbl, m) == credited;
    }
  }

  lemma {:induction false} MovementsInvariant(tbl: seq<Cell>, ms: seq<Movement>)
    requires KeysUnique(tbl) && AreasAccentFree(tbl)
    ensures KeysUnique(AddMovements(tbl, ms)) && AreasAccentFree(AddMovements(tbl, ms))
  {
    if ms != [] {
      MovementsInvariant(tbl, ms[..|ms| - 1]);
      MovementInvariant(AddMovements(tbl, ms[..|ms| - 1]), ms[|ms| - 1]);
    }
  }

  /** One card: the area's label, its cells and their sum. */
  datatype Card = Card(area: string, porTipo: seq<Cell>, total: int)

  /** The card of `name`, whose cells are read under `key`. */
  function CardOf(tbl: seq<Cell>, name: string, key: string): (c: Card)
    ensures c.area == name
    ensures forall x :: x in c.porTipo <==> x in tbl && x.area == key
  {
    RowSpec(tbl, key);
    Card(name, Row(tbl, key), AreaTotal(tbl, key))
  }

  lemma {:induction false} RowSpec(tbl: seq<Cell>, a: string)
    ensures forall x :: x in Row(tbl, a) <==> x in tbl && x.area == a
  {
    if tbl != [] {
      RowSpec(tbl[1..], a);
      assert tbl == [tbl[0]] + tbl[1..];
    }
  }

  /**
   * The cards as written: the card of `AREAS[i]` reads `saldo[AREAS[i].toUpperCase()]`.
   * The page's `AREAS` holds the same seven names as `AREAS_CD`.
   */
  function CardsAsWritten(tbl: seq<Cell>): (r: seq<Card>)
    ensures |r| == |BalanceGrid.AREAS_CD|
    ensures forall i :: 0 <= i < |r| ==> r[i] == CardOf(tbl, Upper(BalanceGrid.AREAS_CD[i]), Upper(BalanceGrid.AREAS_CD[i]))
  {
    var areas := BalanceGrid.AREAS_CD;
    seq(|areas|, i requires 0 <= i < |areas| => CardOf(tbl, Upper(areas[i]), Upper(areas[i])))
  }

  /** The cards as intended: the card reads the cells under the same `norm` that `add` wrote them with. */
  function Cards(tbl: seq<Cell>): (r: seq<Card>)
    ensures |r| == |BalanceGrid.AREAS_CD|
    ensures forall i :: 0 <= i < |r| ==> r[i] == CardOf(tbl, Upper(BalanceGrid.AREAS_CD[i]), Key(BalanceGrid.AREAS_CD[i]))
  {
    var areas := BalanceGrid.AREAS_CD;
    seq(|areas|, i requires 0 <= i < |areas| => CardOf(tbl, Upper(areas[i]), Key(areas[i])))
  }

  /** A key with an accent never names a cell of an accent-free table. */
  lemma AccentedKeyReadsEmpty(tbl: seq<Cell>, a: string)
    requires AreasAccentFree(tbl) && !AccentFree(a)
    ensures Row(tbl, a) == [] && AreaTotal(tbl, a) == 0
  {
    RowSpec(tbl, a);
  }

  /**
   * The cards of "PRODUÇÃO" (index 1) and "FRIGO HORTOLÂNDIA" (index 5)
   * look up a key that keeps its accent, which `add` never writes: whatever
   * the tables hold, both cards show no cells and a total of 0.
   */
  lemma AccentedCardsReadEmpty(es: seq<EntradaRow>, ms: seq<Movement>, i: int)
    requires i == 1 || i == 5
    ensures CardsAsWritten(Saldo(es, ms))[i].porTipo == [] && CardsAsWritten(Saldo(es, ms))[i].total == 0
  {
    if i == 1 {
      AccentedCardReadsEmpty(Saldo(es, ms), 1, 5);
    } else {
      AccentedCardReadsEmpty(Saldo(es, ms), 5, 12);
    }
  }

  /** The card whose upper-cased name has an accent at `k` reads nothing from an accent-free table. */
  lemma AccentedCardReadsEmpty(tbl: seq<Cell>, i: int, k: int)
    requires AreasAccentFree(tbl)
    requires 0 <= i < |BalanceGrid.AREAS_CD| && 0 <= k < |BalanceGrid.AREAS_CD[i]|
    requires BalanceGrid.AREAS_CD[i][k] in "ÇÃÂ"
    ensures CardsAsWritten(tbl)[i].porTipo == [] && CardsAsWritten(tbl)[i].total == 0
  {
    var name := Upper(BalanceGrid.AREAS_CD[i]);
    UpperAt(BalanceGrid.AREAS_CD[i], k);
    assert !AccentFree(name);
    AccentedKeyReadsEmpty(tbl, name);
  }

  /** No character of the string is a combining mark. */
  predicate NoMarks(s: string) {
    forall i :: 0 <= i < |s| ==> !IsCombiningMark(s[i])
  }

  lemma {:induction false} StripAccentsNoMarks(s: string)
    requires NoMarks(s)
    ensures |StripAccents(s)| == |s|
    ensures forall i :: 0 <= i < |s| ==> StripAccents(s)[i] == BaseLetter(s[i])
  {
    if s != [] {
      StripAccentsNoMarks(s[1..]);
    }
  }

  /** On a trimmed, mark-free name, `norm` maps character by character. */
  lemma KeyAt(s: string, i: int)
    requires IsTrimmed(s) && NoMarks(s) && 0 <= i < |s|
    ensures |Key(s)| == |s|
    ensures Key(s)[i] == BaseLetter(UpperChar(s[i]))
  {
    TrimTrimmed(s);
    forall j | 0 <= j < |s| ensures !IsCombiningMark(Upper(s)[j]) {
      UpperAt(s, j);
    }
    StripAccentsNoMarks(Upper(s));
    UpperAt(s, i);
  }

  /**
   * The corrected cards: each shows the net of every row whose normalised
   * area is its own normalised name, over every named type.
   */
  lemma CardTotals(es: seq<EntradaRow>, ms: seq<Movement>, i: int)
    requires 0 <= i < |BalanceGrid.AREAS_CD|
    ensures Cards(Saldo(es, ms))[i].total
         == EntradaAreaSum(es, Key(BalanceGrid.AREAS_CD[i])) + MovementAreaSum(ms, Key(BalanceGrid.AREAS_CD[i]))
  {
    var s := BalanceGrid.AREAS_CD[i];
    AreaNameShape(i);
    KeyAt(s, 0);
    SaldoAreaTotal(es, ms, Key(s));
  }


  /** `totalGeral`, the sum of the cards' totals. */
  function TotalGeral(cards: seq<Card>): (r: int)
    ensures (forall i :: 0 <= i < |cards| ==> cards[i].total == 0) ==> r == 0
    ensures (forall i :: 0 <= i < |cards| ==> cards[i].total >= 0) ==> r >= 0
    ensures (forall i :: 0 <= i < |cards| ==> cards[i].total <= 0) ==> r <= 0
  {
    if cards == [] then 0 else TotalGeral(cards[..|cards| - 1]) + cards[|cards| - 1].total
  }

  /** The keys the corrected cards read, in card order. */
  function CardKeys(): (r: seq<string>)
    ensures |r| == |BalanceGrid.AREAS_CD|
    ensures forall i :: 0 <= i < |r| ==> r[i] == Key(BalanceGrid.AREAS_CD[i])
  {
    var areas := BalanceGrid.AREAS_CD;
    seq(|areas|, i requires 0 <= i < |areas| => Key(areas[i]))
  }

  /** The net of every row over the given area keys. */
  function NetOfAreas(es: seq<EntradaRow>, ms: seq<Movement>, keys: seq<string>): int {
    if keys == [] then 0
    else
      var a := keys[|keys| - 1];
      NetOfAreas(es, ms, keys[..|keys| - 1]) + EntradaAreaSum(es, a) + MovementAreaSum(ms, a)
  }

  lemma {:induction false} TotalGeralOf(cards: seq<Card>, es: seq<EntradaRow>, ms: seq<Movement>, keys: seq<string>)
    requires |cards| == |keys|
    requires forall i :: 0 <= i < |cards| ==> cards[i].total == EntradaAreaSum(es, keys[i]) + MovementAreaSum(ms, keys[i])
    ensures TotalGeral(cards) == NetOfAreas(es, ms, keys)
  {
    if cards != [] {
      TotalGeralOf(cards[..|cards| - 1], es, ms, keys[..|keys| - 1]);
    }
  }

  /** With the corrected cards, `totalGeral` is the net of the ledger over the seven areas. */
  lemma TotalGeralIsNet(es: seq<EntradaRow>, ms: seq<Movement>)
    ensures TotalGeral(Cards(Saldo(es, ms))) == NetOfAreas(es, ms, CardKeys())
  {
    var cards, keys := Cards(Saldo(es, ms)), CardKeys();
    forall i | 0 <= i < |cards|
      ensures cards[i].total == EntradaAreaSum(es, keys[i]) + MovementAreaSum(ms, keys[i])
    {
      CardTotals(es, ms, i);
    }
    TotalGeralOf(cards, es, ms, keys);
  }

  /**
   * The card's light as written: the light gets the card's upper-cased name,
   * and no upper-cased name is "Logística Reversa", whose second letter is
   * lower-case: the light never shows on any card.
   */
  lemma UpperNeverNamesFarolArea(s: string)
    ensures Upper(s) != Farol.AREA
  {
    if |s| == |Farol.AREA| {
      UpperAt(s, 1);
      assert Farol.AREA[1] == 'o';
    }
  }

  lemma FarolHiddenOnEveryCard(tbl: seq<Cell>, i: int)
    requires 0 <= i < |BalanceGrid.AREAS_CD|
    ensures Farol.Farol(CardsAsWritten(tbl)[i].area, CardsAsWritten(tbl)[i].total) == None
  {
    UpperNeverNamesFarolArea(BalanceGrid.AREAS_CD[i]);
  }

  /** The light as intended: the card's name and "Logística Reversa" compared under `norm`. */
  function CardFarol(c: Card): (r: Option<Farol.Status>)
    ensures r.Some? ==> r.value == Farol.Classify(c.total)
  {
    if Key(c.area) == Key(Farol.AREA) then Some(Farol.Classify(c.total)) else None
  }

  /** `norm` maps a trimmed, mark-free name to the upper-case `z` when it does so letter by letter. */
  lemma KeyOf(s: string, z: string)
    requires IsTrimmed(s) && NoMarks(s) && |s| == |z|
    requires forall j :: 0 <= j < |s| ==> BaseLetter(UpperChar(s[j])) == z[j]
    ensures Key(s) == z
  {
    if s != [] {
      KeyAt(s, 0);
    }
    forall j | 0 <= j < |s|
      ensures Key(s)[j] == z[j]
    {
      KeyAt(s, j);
    }
  }

  /** `norm` does not see a prior upper-casing. */
  lemma KeyOfUpper(s: string)
    ensures Key(Upper(s)) == Key(s)
  {
    TrimUpper(s);
    UpperUpper(Trim(s));
  }

  /** With the corrected comparison the light shows on the first card, "LOGISTICA REVERSA", and only there. */
  lemma CorrectedFarolOnReverseLogistics(tbl: seq<Cell>, i: int)
    requires 0 <= i < |BalanceGrid.AREAS_CD|
    ensures CardFarol(Cards(tbl)[i]).Some? <==> i == 0
  {
    KeyOfUpper(BalanceGrid.AREAS_CD[i]);
    FarolKey();
    if i == 0 {
      FirstCardKey();
    } else {
      OtherCardKey(i);
    }
  }

  lemma FarolKey()
    ensures Key(Farol.AREA) == "LOGISTICA REVERSA"
  {
    KeyOf(Farol.AREA, "LOGISTICA REVERSA");
  }

  lemma FirstCardKey()
    ensures Key(BalanceGrid.AREAS_CD[0]) == "LOGISTICA REVERSA"
  {
    KeyOf(BalanceGrid.AREAS_CD[0], "LOGISTICA REVERSA");
  }

  lemma OtherCardKey(i: int)
    requires 0 < i < |BalanceGrid.AREAS_CD|
    ensures Key(BalanceGrid.AREAS_CD[i]) != [] && Key(BalanceGrid.AREAS_CD[i])[0] != 'L'
  {
    AreaNameShape(i);
    KeyHead(BalanceGrid.AREAS_CD[i]);
  }

  /** A trimmed, mark-free name that starts with a capital keeps it under `norm`. */
  lemma KeyHead(s: string)
    requires IsTrimmed(s) && NoMarks(s) && s != [] && 'A' <= s[0] <= 'Z'
    ensures Key(s) != [] && Key(s)[0] == s[0]
  {
    KeyAt(s, 0);
  }

  /** Every fixed area name is trimmed and free of combining marks. */
  lemma AreaNameShape(i: int)
    requires 0 <= i < |BalanceGrid.AREAS_CD|
    ensures IsTrimmed(BalanceGrid.AREAS_CD[i]) && NoMarks(BalanceGrid.AREAS_CD[i])
    ensures BalanceGrid.AREAS_CD[i] != [] && 'A' <= BalanceGrid.AREAS_CD[i][0] <= 'Z'
    ensures BalanceGrid.AREAS_CD[i][0] == 'L' <==> i == 0
  {
  }
}

=== FILE: entry.dfy ===
/**
 * `POST /api/entrada`: an inbound movement with no origin. It is validated
 * but never checked against any balance.
 */
module Entry {
  import opened Wrappers
  import opened Text
  import opened Ledger
  import opened Saldo

  /** The JSON body of the request. */
  datatype Request = Request(
    area: Option<string>,
    tipoPalete: Option<string>,
    quantidade: Num,
    operador: Option<string>,
    fornecedor: Option<string>,
    observacao: Option<string>)

  datatype Rejection = MissingFields | NonPositiveQuantity {
    function Message(): string {
      match this
      case MissingFields => "Campos obrigatórios ausentes"
      case NonPositiveQuantity => "Quantidade deve ser maior que 0"
    }
  }

  /** The entrada check: area, type and operator are non-blank and the quantity is a finite number. */
  predicate HasRequiredFields(req: Request) {
    && Trim(OrEmpty(req.area)) != []
    && Trim(OrEmpty(req.tipoPalete)) != []
    && Trim(OrEmpty(req.operador)) != []
    && req.quantidade.IsFinite()
  }

  /** The `observacao` of an entrada: the stored note always names the operator. */
  function Note(observacao: Option<string>, operador: string): (r: string)
    ensures Present(OptionalText(observacao)) ==> r == Trim(observacao.value) + " | Operador: " + operador
    ensures !Present(OptionalText(observacao)) ==> r == "Entrada | Operador: " + operador
  {
    var obs := OptionalText(observacao);
    if Present(obs) then obs.value + " | Operador: " + operador
    else "Entrada | Operador: " + operador
  }

  /** `POST /api/entrada`: validate, then create the entrada row at instant `now`. */
  function Register(req: Request, now: Instant): (r: Result<Movement, Rejection>)
    ensures r == Err(MissingFields) <==> !HasRequiredFields(req)
    ensures r == Err(NonPositiveQuantity) <==> HasRequiredFields(req) && req.quantidade.value <= 0
    ensures r.Ok? <==> HasRequiredFields(req) && req.quantidade.value > 0
    ensures r.Ok? ==>
      && r.value.origem == None
      && r.value.destino == Some(UpperField(req.area))
      && r.value.tipoPalete == UpperField(req.tipoPalete)
      && r.value.quantidade == req.quantidade.value
      && r.value.fornecedor == OptionalText(req.fornecedor)
      && r.value.observacao == Some(Note(req.observacao, Trim(OrEmpty(req.operador))))
      && r.value.createdAt == now
  {
    var area := UpperField(req.area);
    var tipo := UpperField(req.tipoPalete);
    var q := req.quantidade;
    var operador := Trim(OrEmpty(req.operador));
    if area == [] || tipo == [] || !q.IsFinite() || operador == [] then Err(MissingFields)
    else if q.value <= 0 then Err(NonPositiveQuantity)
    else Ok(Movement(None, Some(area), tipo, q.value, OptionalText(req.fornecedor),
                     Some(Note(req.observacao, operador)), now))
  }

  /**
   * Whatever the ledger holds, a registered entrada raises the balance of its
   * area and type by its quantity and leaves every other named area and every
   * other type as it was.
   */
  lemma RegisteredEntradaCredits(ledger: seq<Movement>, req: Request, now: Instant, area: string, tipo: string)
    requires Register(req, now).Ok?
    requires Norm(Some(area)) != []
    ensures var after := ledger + [Register(req, now).value];
      && (Norm(Some(area)) == Norm(req.area) && Norm(Some(tipo)) == Norm(req.tipoPalete) ==>
            Balance(after, area, tipo) == Balance(ledger, area, tipo) + req.quantidade.value > Balance(ledger, area, tipo))
      && (Norm(Some(area)) != Norm(req.area) || Norm(Some(tipo)) != Norm(req.tipoPalete) ==>
            Balance(after, area, tipo) == Balance(ledger, area, tipo))
  {
    var m := Register(req, now).value;
    NormOfUpperField(req.area);
    NormOfUpperField(req.tipoPalete);
    if Norm(Some(tipo)) == Norm(req.tipoPalete) {
      EntradaCreditsDestinationOnly(ledger, m, area, tipo);
    } else {
      OtherTypeContributesNothing(ledger, m, area, tipo);
    }
  }
}

=== FILE: exit.dfy ===
/**
 * `POST /api/saida`: pallets leaving an area for a supplier or store. Names
 * are trimmed but keep their case, and no balance is consulted.
 */
module Exit {
  import opened Wrappers
  import opened Text
  import opened Ledger
  import opened Saldo

  /** The JSON body of the request. */
  datatype Request = Request(
    fornecedor: Option<string>,
    tipoPalete: Option<string>,
    quantidade: Num,
    area: Option<string>,
    operador: Option<string>,
    observacao: Option<string>)

  /**
   * The 400 answer, and the 500 answer when an infinite quantity passes the
   * checks and the store refuses to write it into an integer column.
   */
  datatype Rejection = InvalidFields | StorageFailure {
    function Message(): string {
      match this
      case InvalidFields => "Campos obrigatórios ausentes ou inválidos"
      case StorageFailure => "Erro ao registrar saída"
    }

    function Status(): int {
      match this
      case InvalidFields => 400
      case StorageFailure => 500
    }
  }

  /** `String(x ?? "").trim()`. */
  function TextField(x: Option<string>): string {
    Trim(OrEmpty(x))
  }

  /** The saida check: all four names non-blank and `!quantidade || quantidade <= 0` false. */
  predicate Passes(req: Request) {
    && TextField(req.fornecedor) != []
    && TextField(req.tipoPalete) != []
    && TextField(req.area) != []
    && TextField(req.operador) != []
    && ((req.quantidade.Finite? && req.quantidade.value > 0) || req.quantidade == Infinity(false))
  }

  /** `POST /api/saida`: validate, then create the row area → supplier at instant `now`. */
  function Register(req: Request, now: Instant): (r: Result<Movement, Rejection>)
    ensures r == Err(InvalidFields) <==> !Passes(req)
    ensures r == Err(StorageFailure) <==> Passes(req) && !req.quantidade.IsFinite()
    ensures r.Ok? <==> Passes(req) && req.quantidade.IsFinite()
    ensures r.Ok? ==>
      && r.value.origem == Some(TextField(req.area))
      && r.value.destino == Some(TextField(req.fornecedor))
      && r.value.fornecedor == Some(TextField(req.fornecedor))
      && r.value.tipoPalete == TextField(req.tipoPalete)
      && r.value.quantidade == req.quantidade.value > 0
      && r.value.observacao == OptionalText(req.observacao)
      && r.value.createdAt == now
  {
    var fornecedor := TextField(req.fornecedor);
    var tipo := TextField(req.tipoPalete);
    var area := TextField(req.area);
    var operador := TextField(req.operador);
    var q := req.quantidade;
    if fornecedor == [] || tipo == [] || area == [] || operador == [] || !q.Truthy()
       || (q.Finite? && q.value <= 0) || q == Infinity(true)
    then Err(InvalidFields)
    else if !q.IsFinite() then Err(StorageFailure)
    else Ok(Movement(Some(area), Some(fornecedor), tipo, q.value, Some(fornecedor), OptionalText(req.observacao), now))
  }

  /**
   * With no guard, a valid saida is registered whatever the ledger holds, and
   * debits its area: an area holding less than the quantity ends negative.
   */
  lemma SaidaOverdraws(ledger: seq<Movement>, req: Request, now: Instant)
    requires Passes(req) && req.quantidade.IsFinite()
    requires Norm(req.fornecedor) != Norm(req.area)
    ensures Register(req, now).Ok?
    ensures var after := ledger + [Register(req, now).value];
      && Balance(after, TextField(req.area), TextField(req.tipoPalete))
         == Balance(ledger, TextField(req.area), TextField(req.tipoPalete)) - req.quantidade.value
      && (Balance(ledger, TextField(req.area), TextField(req.tipoPalete)) < req.quantidade.value ==>
            Balance(after, TextField(req.area), TextField(req.tipoPalete)) < 0)
  {
    var m := Register(req, now).value;
    var area, tipo := TextField(req.area), TextField(req.tipoPalete);
    BalanceSnoc(ledger, m, area, tipo);
    TrimTrimmed(area);
    TrimTrimmed(TextField(req.fornecedor));
  }
}

=== FILE: export.dfy ===
/**
 * `GET /api/historico/export`: the history rows as a `;`-separated CSV with
 * every value quoted (quotes doubled, as in section 2, rule 7 of RFC 4180),
 * or as a spreadsheet. The spreadsheet encoding and the date text are not
 * modelled: the date is rendered by a caller-supplied function.
 */
module Export {
  import opened Wrappers
  import opened Text
  import opened Ledger
  import History

  /** One element of `dados`: the seven columns of a row. */
  datatype Dado = Dado(
    data: string,
    origem: string,
    destino: Option<string>,
    tipo: string,
    quantidade: int,
    fornecedor: string,
    observacao: string)

  /** One element of `dados`: a row as the export shows it. */
  function ToDado(m: Movement, formatDate: Instant -> string): (d: Dado)
    ensures m.origem.None? ==> d.origem == "ENTRADA"
    ensures m.origem.Some? ==> d.origem == m.origem.value
    ensures d.fornecedor == m.fornecedor.GetOr("") && d.observacao == m.observacao.GetOr("")
    ensures d.destino == m.destino && d.tipo == m.tipoPalete && d.quantidade == m.quantidade
  {
    Dado(formatDate(m.createdAt), m.origem.GetOr("ENTRADA"), m.destino, m.tipoPalete, m.quantidade,
      m.fornecedor.GetOr(""), m.observacao.GetOr(""))
  }

  /** `Object.keys(dados[0])`. */
  const COLUMNS: seq<string> := ["Data", "Origem", "Destino", "Tipo", "Quantidade", "Fornecedor", "Observacao"]

  /** `Object.values(d).map(String)`: a missing destino prints as "null". */
  function Values(d: Dado): (r: seq<string>)
    ensures |r| == |COLUMNS|
    ensures ReadInt(r[4]) == Some(d.quantidade)
    ensures r[2] == "null" <==> d.destino.None? || d.destino == Some("null")
  {
    IntToStringReadsBack(d.quantidade);
    [d.data, d.origem, d.destino.GetOr("null"), d.tipo, IntToString(d.quantidade), d.fornecedor, d.observacao]
  }

  /** `v.replace(/"/g, '""')`. */
  function Double(v: string): (r: string)
    ensures |r| >= |v|
  {
    if v == [] then [] else (if v[0] == '"' then "\"\"" else [v[0]]) + Double(v[1..])
  }

  /** `"${String(v).replace(…)}"`: one value in quotes. */
  function Quote(v: string): (r: string)
    ensures ParseQuoted(r) == Some((v, []))
  {
    ParseBodyDouble(v, []);
    assert "\"" + Double(v) + "\"" == "\"" + (Double(v) + "\"" + []);
    "\"" + Double(v) + "\""
  }

  /** `.join(sep)`. */
  function Join(parts: seq<string>, sep: string): string {
    if parts == [] then []
    else if |parts| == 1 then parts[0]
    else parts[0] + sep + Join(parts[1..], sep)
  }

  /** One CSV line, its values quoted and joined by ";". */
  function Line(values: seq<string>): (r: string)
    ensures values == [] <==> r == []
  {
    if values == [] then []
    else if |values| == 1 then Quote(values[0])
    else Quote(values[0]) + ";" + Line(values[1..])
  }

  /** The CSV text: the header (empty when there are no rows) then one line per row, joined by "\n". */
  function Csv(dados: seq<Dado>): (r: string)
    ensures dados == [] <==> r == []
  {
    if dados == [] then []
    else Join(COLUMNS, ";") + "\n" + Lines(ValueRows(dados))
  }

  /** One line per row, joined by "\n". */
  function Lines(rows: seq<seq<string>>): string {
    if rows == [] then []
    else if |rows| == 1 then Line(rows[0])
    else Line(rows[0]) + "\n" + Lines(rows[1..])
  }

  /** What the route answers. The workbook stands for the bytes `XLSX.write` makes of `dados`. */
  datatype Download = CsvFile(text: string) | Workbook(dados: seq<Dado>)

  /** `lista.map(…)`. */
  function Dados(lista: seq<Movement>, formatDate: Instant -> string): (r: seq<Dado>)
    ensures |r| == |lista|
  {
    seq(|lista|, i requires 0 <= i < |lista| => ToDado(lista[i], formatDate))
  }

  /** The column values of each row, as the CSV writes them. */
  function ValueRows(dados: seq<Dado>): (r: seq<seq<string>>)
    ensures |r| == |dados|
  {
    seq(|dados|, i requires 0 <= i < |dados| => Values(dados[i]))
  }

  /**
   * `GET /api/historico/export`: filter and order as the history does, map the rows, then
   * CSV unless another format is asked for. Either way the download carries
   * exactly the rows the history route lists, in the same order.
   */
  function Export(ledger: seq<Movement>, q: History.Query, formato: Option<string>, formatDate: Instant -> string)
    : (r: Result<Download, string>)
    ensures History.Unreadable(q) <==> r == Err("Erro ao exportar histórico")
    ensures r.Ok? ==> (r.value.CsvFile? <==> formato.GetOr("csv") == "csv")
    ensures r.Ok? ==> Rows(r.value) == ValueRows(Dados(History.Historico(ledger, q).value, formatDate))
  {
    match History.Historico(ledger, q)
    case Err(_) => Err("Erro ao exportar histórico")
    case Ok(lista) =>
      var dados := Dados(lista, formatDate);
      if formato.GetOr("csv") == "csv" then
        CsvParsesBack(dados);
        Ok(CsvFile(Csv(dados)))
      else
        Ok(Workbook(dados))
  }

  /** The rows a download carries: the spreadsheet's, or those the CSV text parses back to. */
  function Rows(d: Download): seq<seq<string>> {
    match d
    case Workbook(dados) => ValueRows(dados)
    case CsvFile(text) =>
      match ParseCsv(text)
      case Some(rows) => rows
      case None => []
  }

  // ---- Reading the CSV back: the inverse that the format promises.

  /** The inside of a quoted value up to its closing quote: a doubled quote stands for one. */
  function ParseBody(s: string): (r: Option<(string, string)>)
    ensures r.Some? ==> |r.value.1| < |s|
  {
    if s == [] then None
    else if s[0] == '"' then
      if |s| > 1 && s[1] == '"' then
        match ParseBody(s[2..])
        case None => None
        case Some((v, rest)) => Some(("\"" + v, rest))
      else Some(([], s[1..]))
    else
      match ParseBody(s[1..])
      case None => None
      case Some((v, rest)) => Some(([s[0]] + v, rest))
  }

  /** One quoted value at the start of `s`, and what follows it. */
  function ParseQuoted(s: string): (r: Option<(string, string)>)
    ensures r.Some? ==> |r.value.1| < |s|
  {
    if s == [] || s[0] != '"' then None else ParseBody(s[1..])
  }

  /** `;`-separated quoted values at the start of `s`, and what follows the last. */
  function ParseLine(s: string): (r: Option<(seq<string>, string)>)
    ensures r.Some? ==> |r.value.1| < |s|
    decreases |s|
  {
    match ParseQuoted(s)
    case None => None
    case Some((v, rest)) =>
      if rest != [] && rest[0] == ';' then
        match ParseLine(rest[1..])
        case None => None
        case Some((vs, rest')) => Some(([v] + vs, rest'))
      else Some(([v], rest))
  }

  /** Lines separated by "\n" up to the end of `s`. */
  function ParseLines(s: string): Option<seq<seq<string>>>
    decreases |s|
  {
    match ParseLine(s)
    case None => None
    case Some((vs, rest)) =>
      if rest == [] then Some([vs])
      else if rest[0] == '\n' then
        match ParseLines(rest[1..])
        case None => None
        case Some(more) => Some([vs] + more)
      else None
  }

  /** The whole file: nothing, or the header line and the data lines. */
  function ParseCsv(s: string): Option<seq<seq<string>>> {
    var header := Join(COLUMNS, ";") + "\n";
    if s == [] then Some([])
    else if |header| <= |s| && s[..|header|] == header then ParseLines(s[|header|..])
    else None
  }

  lemma {:induction false} ParseBodyDouble(v: string, rest: string)
    requires rest == [] || rest[0] != '"'
    ensures ParseBody(Double(v) + "\"" + rest) == Some((v, rest))
  {
    if v != [] {
      ParseBodyDouble(v[1..], rest);
      if v[0] == '"' {
        assert Double(v) + "\"" + rest == "\"\"" + (Double(v[1..]) + "\"" + rest);
        assert "\"" + v[1..] == v;
      } else {
        assert Double(v) + "\"" + rest == [v[0]] + (Double(v[1..]) + "\"" + rest);
        assert [v[0]] + v[1..] == v;
      }
    } else {
      assert Double(v) + "\"" + rest == "\"" + rest;
    }
  }

  /** Unquoting recovers the value exactly, whatever quotes it holds. */
  lemma ParseQuotedQuote(v: string, rest: string)
    requires rest == [] || rest[0] != '"'
    ensures ParseQuoted(Quote(v) + rest) == Some((v, rest))
  {
    ParseBodyDouble(v, rest);
    assert Quote(v) + rest == "\"" + (Double(v) + "\"" + rest);
  }

  lemma ParseLineSemicolon(s: string, v: string, tail: string)
    requires ParseQuoted(s) == Some((v, ";" + tail))
    ensures ParseLine(s) == match ParseLine(tail)
      case None => None
      case Some((vs, rest)) => Some(([v] + vs, rest))
  {
    assert (";" + tail)[1..] == tail;
  }

  lemma ParseLineLast(s: string, v: string, rest: string)
    requires ParseQuoted(s) == Some((v, rest))
    requires rest == [] || rest[0] != ';'
    ensures ParseLine(s) == Some(([v], rest))
  {
  }

  lemma LineCons(values: seq<string>, rest: string)
    requires |values| > 1
    ensures Line(values) + rest == Quote(values[0]) + (";" + (Line(values[1..]) + rest))
  {
  }

  /** A line of quoted values parses back to its values. */
  lemma {:induction false} ParseLineLine(values: seq<string>, rest: string)
    requires values != []
    requires rest == [] || (rest[0] != '"' && rest[0] != ';')
    ensures ParseLine(Line(values) + rest) == Some((values, rest))
  {
    var s := Line(values) + rest;
    if |values| == 1 {
      assert s == Quote(values[0]) + rest;
      ParseQuotedQuote(values[0], rest);
      ParseLineLast(s, values[0], rest);
      assert [values[0]] == values;
    } else {
      var tail := Line(values[1..]) + rest;
      LineCons(values, rest);
      ParseQuotedQuote(values[0], ";" + tail);
      ParseLineLine(values[1..], rest);
      ParseLineSemicolon(s, values[0], tail);
      assert [values[0]] + values[1..] == values;
    }
  }

  lemma ParseLinesNewline(s: string, vs: seq<string>, tail: string)
    requires ParseLine(s) == Some((vs, "\n" + tail))
    ensures ParseLines(s) == match ParseLines(tail)
      case None => None
      case Some(more) => Some([vs] + more)
  {
    assert ("\n" + tail)[1..] == tail;
  }

  lemma ParseLinesLast(s: string, vs: seq<string>)
    requires ParseLine(s) == Some((vs, []))
    ensures ParseLines(s) == Some([vs])
  {
  }

  lemma LinesCons(rows: seq<seq<string>>)
    requires |rows| > 1
    ensures Lines(rows) == Line(rows[0]) + ("\n" + Lines(rows[1..]))
  {
  }

  /** Lines of non-empty rows parse back to those rows. */
  lemma {:induction false} ParseLinesLines(rows: seq<seq<string>>)
    requires rows != []
    requires forall i :: 0 <= i < |rows| ==> rows[i] != []
    ensures ParseLines(Lines(rows)) == Some(rows)
  {
    if |rows| == 1 {
      ParseLineLine(rows[0], []);
      assert Line(rows[0]) + [] == Lines(rows);
      ParseLinesLast(Lines(rows), rows[0]);
      assert [rows[0]] == rows;
    } else {
      var tail := Lines(rows[1..]);
      LinesCons(rows);
      ParseLineLine(rows[0], "\n" + tail);
      ParseLinesLines(rows[1..]);
      ParseLinesNewline(Lines(rows), rows[0], tail);
      assert [rows[0]] + rows[1..] == rows;
    }
  }

  /** The CSV text parses back to exactly the rows' values, one line per row, in order. */
  lemma CsvParsesBack(dados: seq<Dado>)
    ensures ParseCsv(Csv(dados)) == Some(ValueRows(dados))
  {
    if dados != [] {
      var header := Join(COLUMNS, ";") + "\n";
      var rows := ValueRows(dados);
      assert Csv(dados) == header + Lines(rows);
      assert Csv(dados)[..|header|] == header;
      assert Csv(dados)[|header|..] == Lines(rows);
      assert forall i :: 0 <= i < |rows| ==> |rows[i]| == |COLUMNS|;
      ParseLinesLines(rows);
    }
  }
}

=== FILE: farol.dfy ===
/**
 * `FarolLogisticaReversa`: the three-colour status of the reverse-logistics
 * balance, shown only for that one area.
 */
module Farol {
  import opened Wrappers

  datatype Status = Critico | Atencao | Saudavel {

    /** The text the light shows. */
    function Label(): string {
      match this
      case Critico => "Crítico"
      case Atencao => "Atenção"
      case Saudavel => "Saudável"
    }

    /** Worst to best. */
    function Rank(): nat {
      match this
      case Critico => 0
      case Atencao => 1
      case Saudavel => 2
    }
  }

  /** The light's thresholds: at most 600 is critical, up to 1199 needs attention, from 1200 it is healthy. */
  function Classify(saldo: int): (s: Status)
    ensures s == Critico <==> saldo <= 600
    ensures s == Atencao <==> 600 < saldo <= 1199
    ensures s == Saudavel <==> 1200 <= saldo
  {
    if saldo <= 600 then Critico
    else if saldo <= 1199 then Atencao
    else Saudavel
  }

  /** A larger balance never gets a worse status. */
  lemma ClassifyMonotone(a: int, b: int)
    requires a <= b
    ensures Classify(a).Rank() <= Classify(b).Rank()
  {
  }

  /** The farol sheet of the Excel report: "Saudável" unless one of the two thresholds catches it. */
  function ReportStatus(saldo: int): Status {
    var status := Saudavel;
    if saldo <= 600 then Critico
    else if saldo <= 1199 then Atencao
    else status
  }

  /** The report and the component classify every balance alike. */
  lemma ReportAgreesWithComponent(saldo: int)
    ensures ReportStatus(saldo) == Classify(saldo)
  {
  }

  /** The one area the light is for, spelled as the component compares it. */
  const AREA: string := "Logística Reversa"

  /** `FarolLogisticaReversa`: nothing unless the area is spelled exactly "Logística Reversa". */
  function Farol(area: string, saldo: int): (r: Option<Status>)
    ensures r.Some? <==> area == AREA
    ensures r.Some? ==> r.value == Classify(saldo)
  {
    if area != AREA then None else Some(Classify(saldo))
  }
}

=== FILE: history.dfy ===
/**
 * `GET /api/historico`: the ledger rows that match an optional type, an
 * optional area (as origin or destination) and an optional date range,
 * newest first. The export route builds the same filter.
 */
module History {
  import opened Wrappers
  import opened Text
  import opened Ledger

  /** A date parameter: absent or empty, a date `new Date(…)` reads, or one it cannot read. */
  datatype DateParam = NoDate | OnDate(at: Instant) | BadDate

  /** The query string: `tipoPalete` and `area` as given, the two dates as read. */
  datatype Query = Query(area: Option<string>, tipoPalete: Option<string>, dataIni: DateParam, dataFim: DateParam)

  /** The `where` object as a predicate on one row. */
  predicate Matches(q: Query, m: Movement) {
    && (Present(q.tipoPalete) ==> m.tipoPalete == Upper(q.tipoPalete.value))
    && (Present(q.area) ==> m.origem == Some(Upper(q.area.value)) || m.destino == Some(Upper(q.area.value)))
    && (q.dataIni.OnDate? ==> AtOrBefore(q.dataIni.at, m.createdAt))
    && (q.dataFim.OnDate? ==> AtOrBefore(m.createdAt, q.dataFim.at))
  }

  /** Each parameter only narrows the rows: dropping any one of them keeps every row that matched. */
  lemma MatchesNarrows(q: Query, m: Movement)
    requires Matches(q, m)
    ensures Matches(q.(tipoPalete := None), m) && Matches(q.(area := None), m)
    ensures Matches(q.(dataIni := NoDate), m) && Matches(q.(dataFim := NoDate), m)
  {
  }

  /** An invalid `Date` in the filter makes the query throw. */
  predicate Unreadable(q: Query) {
    q.dataIni == BadDate || q.dataFim == BadDate
  }

  /** The matching rows, in ledger order, each as often as the ledger holds it. */
  function Filter(q: Query, ledger: seq<Movement>): (r: seq<Movement>)
    ensures |r| <= |ledger|
    ensures forall m :: m in r <==> m in ledger && Matches(q, m)
    ensures forall m :: multiset(r)[m] == if Matches(q, m) then multiset(ledger)[m] else 0
  {
    if ledger == [] then []
    else
      var m := ledger[|ledger| - 1];
      assert ledger == ledger[..|ledger| - 1] + [m];
      Filter(q, ledger[..|ledger| - 1]) + (if Matches(q, m) then [m] else [])
  }

  /** Newest first: `orderBy: { createdAt: "desc" }`. */
  predicate NewestFirst(s: seq<Movement>) {
    forall i, j :: 0 <= i < j < |s| ==> AtOrBefore(s[j].createdAt, s[i].createdAt)
  }

  /** Put one row into a newest-first list, after every row at least as new. */
  function Insert(x: Movement, s: seq<Movement>): (r: seq<Movement>)
    requires NewestFirst(s)
    ensures NewestFirst(r)
    ensures multiset(r) == multiset(s) + multiset{x}
  {
    if s == [] then [x]
    else if AtOrBefore(x.createdAt, s[0].createdAt) then
      var tail := Insert(x, s[1..]);
      assert s == [s[0]] + s[1..];
      TailNoNewer(x, s, tail);
      [s[0]] + tail
    else
      [x] + s
  }

  /** What `Insert` puts behind the head of `s` is no newer than that head. */
  lemma TailNoNewer(x: Movement, s: seq<Movement>, tail: seq<Movement>)
    requires s != [] && NewestFirst(s) && AtOrBefore(x.createdAt, s[0].createdAt)
    requires multiset(tail) == multiset(s[1..]) + multiset{x}
    ensures forall k :: 0 <= k < |tail| ==> AtOrBefore(tail[k].createdAt, s[0].createdAt)
  {
    forall k | 0 <= k < |tail|
      ensures AtOrBefore(tail[k].createdAt, s[0].createdAt)
    {
      var z := tail[k];
      assert z in multiset(tail);
      if z != x {
        assert z in multiset(s[1..]);
        var j :| 0 <= j < |s[1..]| && s[1..][j] == z;
        assert s[j + 1] == z;
      }
    }
  }

  /** The rows newest first; rows with the same instant keep no promised order. */
  function SortNewestFirst(s: seq<Movement>): (r: seq<Movement>)
    ensures NewestFirst(r)
    ensures multiset(r) == multiset(s)
  {
    if s == [] then []
    else
      assert s == [s[0]] + s[1..];
      Insert(s[0], SortNewestFirst(s[1..]))
  }

  /** `GET /api/historico`: the rows that match, newest first, or the 500 of an unreadable date. */
  function Historico(ledger: seq<Movement>, q: Query): (r: Result<seq<Movement>, string>)
    ensures Unreadable(q) <==> r == Err("Erro ao buscar histórico")
    ensures r.Ok? ==> NewestFirst(r.value)
    ensures r.Ok? ==> multiset(r.value) == multiset(Filter(q, ledger))
  {
    if Unreadable(q) then Err("Erro ao buscar histórico")
    else Ok(SortNewestFirst(Filter(q, ledger)))
  }

  /**
   * Every row returned is a ledger row, unchanged, that matches the query;
   * every matching row is returned, as many times as the ledger holds it.
   */
  lemma HistoricoIsMatchingRows(ledger: seq<Movement>, q: Query, m: Movement)
    requires Historico(ledger, q).Ok?
    ensures m in Historico(ledger, q).value <==> m in ledger && Matches(q, m)
    ensures multiset(Historico(ledger, q).value)[m] == if Matches(q, m) then multiset(ledger)[m] else 0
  {
    var r := Historico(ledger, q).value;
    assert m in r <==> m in multiset(r);
    assert m in Filter(q, ledger) <==> m in multiset(Filter(q, ledger));
  }

  /** An absent or empty parameter adds no constraint. */
  lemma EmptyQueryMatchesAll(m: Movement)
    ensures Matches(Query(None, None, NoDate, NoDate), m)
    ensures Matches(Query(Some(""), Some(""), NoDate, NoDate), m)
  {
  }

  /** Both date bounds are inclusive: a row stamped exactly at a bound is returned. */
  lemma BoundsInclusive(q: Query, m: Movement)
    requires !Present(q.tipoPalete) && !Present(q.area)
    requires q.dataIni == OnDate(m.createdAt) && q.dataFim == OnDate(m.createdAt)
    ensures Matches(q, m)
  {
  }

  /** An entrada has no origem, so an area filter finds it by its destino only. */
  lemma EntradaMatchesByDestino(q: Query, m: Movement)
    requires m.origem.None? && Present(q.area)
    ensures Matches(q, m) ==> m.destino == Some(Upper(q.area.value))
  {
  }
}

=== FILE: ledger.dfy ===
/**
 * The movement ledger: the `Movimentacao` rows every balance and report folds over,
 * the numbers requests carry, and the instants rows are stamped with.
 */
module Ledger {
  import opened Wrappers
  import opened Text

  /**
   * `Number(x)` of a request field. Finite values are integers here, so
   * `Math.trunc` is the identity on them.
   */
  datatype Num = Finite(value: int) | NaN | Infinity(negative: bool) {

    /** `Number.isFinite(this)`. */
    predicate IsFinite() {
      Finite?
    }

    /** JavaScript truthiness: `!this` holds for 0 and NaN only. */
    predicate Truthy() {
      (Finite? && value != 0) || Infinity?
    }
  }

  /**
   * A point in time: the absolute calendar month (`12 * year + month - 1`)
   * and the offset inside that month. Ordering is lexicographic.
   */
  datatype Instant = Instant(month: int, offset: nat)

  predicate AtOrBefore(a: Instant, b: Instant) {
    a.month < b.month || (a.month == b.month && a.offset <= b.offset)
  }

  predicate Before(a: Instant, b: Instant) {
    a.month < b.month || (a.month == b.month && a.offset < b.offset)
  }

  /** `new Date(y, …)` reads a year between 0 and 99 as 1900 + y. */
  function CalendarYear(ano: int): int {
    if 0 <= ano <= 99 then 1900 + ano else ano
  }

  /** `new Date(ano, mes - 1, 1)`: months outside 1..12 roll over into neighbouring years. */
  function MonthStart(ano: int, mes: int): Instant {
    Instant(12 * CalendarYear(ano) + mes - 1, 0)
  }

  /** `createdAt: { gte: new Date(ano, mes - 1, 1), lt: new Date(ano, mes, 1) }`. */
  predicate InMonth(t: Instant, ano: int, mes: int) {
    AtOrBefore(MonthStart(ano, mes), t) && Before(t, MonthStart(ano, mes + 1))
  }

  /** The half-open window of a month holds exactly the instants of that calendar month. */
  lemma InMonthIsMonthTag(t: Instant, ano: int, mes: int)
    ensures InMonth(t, ano, mes) <==> t.month == 12 * CalendarYear(ano) + mes - 1
  {
  }

  /** One `Movimentacao` row. An entrada has no origem. */
  datatype Movement = Movement(
    origem: Option<string>,
    destino: Option<string>,
    tipoPalete: string,
    quantidade: int,
    fornecedor: Option<string>,
    observacao: Option<string>,
    createdAt: Instant)

  /** JavaScript truthiness of a nullable string: present and non-empty. */
  predicate Present(s: Option<string>) {
    s.Some? && s.value != []
  }

  /** `String(s ?? "")`. */
  function OrEmpty(s: Option<string>): string {
    s.GetOr("")
  }

  /** `String(x ?? "").trim().toUpperCase()`: how the transfer and entry routes read a name. */
  function UpperField(x: Option<string>): string {
    Upper(Trim(OrEmpty(x)))
  }

  /** `x ? String(x).trim() : null`: an optional free-text field. */
  function OptionalText(x: Option<string>): Option<string> {
    if Present(x) then Some(Trim(x.value)) else None
  }
}

=== FILE: monthly.dfy ===
/**
 * `GET /api/resumo-mensal`: for one calendar month, the pallets that came
 * into and went out of each area, keyed by the names exactly as stored.
 * The month check and the summary record are shared with the per-type
 * summary and the yearly comparison.
 */
module Monthly {
  import opened Wrappers
  import opened Ledger

  /** Why a period query is refused. */
  datatype PeriodError = MissingPeriod(message: string) | QueryFailure(message: string) {
    function Status(): int {
      match this
      case MissingPeriod(_) => 400
      case QueryFailure(_) => 500
    }
  }

  /**
   * The period check: `!ano || !mes` answers 400; an infinite year or month gives
   * an invalid `Date`, which the query rejects, answered 500 by the `catch`.
   */
  function CheckPeriod(ano: Num, mes: Num, failure: string): (r: Result<(int, int), PeriodError>)
    ensures r == Err(MissingPeriod("Ano e mês obrigatórios")) <==> !ano.Truthy() || !mes.Truthy()
    ensures r == Err(QueryFailure(failure)) <==> ano.Truthy() && mes.Truthy() && !(ano.IsFinite() && mes.IsFinite())
    ensures r.Ok? <==> ano.Truthy() && mes.Truthy() && ano.IsFinite() && mes.IsFinite()
    ensures r.Ok? ==> r.value == (ano.value, mes.value) && r.value.0 != 0 && r.value.1 != 0
  {
    if !ano.Truthy() || !mes.Truthy() then Err(MissingPeriod("Ano e mês obrigatórios"))
    else if !ano.IsFinite() || !mes.IsFinite() then Err(QueryFailure(failure))
    else Ok((ano.value, mes.value))
  }

  /** The month window: the rows whose `createdAt` lies in the month, in ledger order. */
  function Window(ledger: seq<Movement>, ano: int, mes: int): (r: seq<Movement>)
    ensures |r| <= |ledger|
    ensures forall m :: m in r <==> m in ledger && InMonth(m.createdAt, ano, mes)
  {
    if ledger == [] then []
    else
      var m := ledger[|ledger| - 1];
      Window(ledger[..|ledger| - 1], ano, mes) + (if InMonth(m.createdAt, ano, mes) then [m] else [])
  }

  /** `{ entradas, saidas, saldo }`. */
  datatype Summary = Summary(entradas: int, saidas: int, saldo: int)

  /** `resumo[k]`, or the fresh `{ 0, 0, 0 }` that `??=` would create. */
  function Get(r: map<string, Summary>, k: string): Summary {
    if k in r then r[k] else Summary(0, 0, 0)
  }

  /** `resumo[k] ??= …; resumo[k].entradas += q; resumo[k].saldo += q`. */
  function Credit(r: map<string, Summary>, k: string, q: int): (r': map<string, Summary>)
    ensures r'.Keys == r.Keys + {k}
  {
    var b := Get(r, k);
    r[k := Summary(b.entradas + q, b.saidas, b.saldo + q)]
  }

  /** `resumo[k] ??= …; resumo[k].saidas += q; resumo[k].saldo -= q`. */
  function Debit(r: map<string, Summary>, k: string, q: int): (r': map<string, Summary>)
    ensures r'.Keys == r.Keys + {k}
  {
    var b := Get(r, k);
    r[k := Summary(b.entradas, b.saidas + q, b.saldo - q)]
  }

  /** One pass of the loop: one row credits its truthy destino and debits its truthy origem. */
  function AreaStep(r: map<string, Summary>, m: Movement): map<string, Summary> {
    var credited := if Present(m.destino) then Credit(r, m.destino.value, m.quantidade) else r;
    if Present(m.origem) then Debit(credited, m.origem.value, m.quantidade) else credited
  }

  /** The loop over the month's rows. */
  function Summarise(rows: seq<Movement>): (r: map<string, Summary>)
    ensures r.Keys == Names(rows)
  {
    if rows == [] then map[]
    else
      var prefix, m := rows[..|rows| - 1], rows[|rows| - 1];
      AreaStepGet(Summarise(prefix), m, "");
      AreaStep(Summarise(prefix), m)
  }

  /** The raw truthy names a row carries. */
  function RowNames(m: Movement): set<string> {
    (if Present(m.destino) then {m.destino.value} else {}) + (if Present(m.origem) then {m.origem.value} else {})
  }

  /** Every raw truthy origem or destino of the rows. */
  function Names(rows: seq<Movement>): set<string> {
    if rows == [] then {} else Names(rows[..|rows| - 1]) + RowNames(rows[|rows| - 1])
  }

  /** Σ quantity of the rows whose destino is exactly `k`. */
  function Inflow(rows: seq<Movement>, k: string): int {
    if rows == [] then 0
    else
      var m := rows[|rows| - 1];
      Inflow(rows[..|rows| - 1], k) + (if Present(m.destino) && m.destino.value == k then m.quantidade else 0)
  }

  /** Σ quantity of the rows whose origem is exactly `k`. */
  function Outflow(rows: seq<Movement>, k: string): int {
    if rows == [] then 0
    else
      var m := rows[|rows| - 1];
      Outflow(rows[..|rows| - 1], k) + (if Present(m.origem) && m.origem.value == k then m.quantidade else 0)
  }

  lemma AreaStepGet(r: map<string, Summary>, m: Movement, k: string)
    ensures AreaStep(r, m).Keys == r.Keys + RowNames(m)
    ensures Get(AreaStep(r, m), k) == Summary(
      Get(r, k).entradas + (if Present(m.destino) && m.destino.value == k then m.quantidade else 0),
      Get(r, k).saidas + (if Present(m.origem) && m.origem.value == k then m.quantidade else 0),
      Get(r, k).saldo + (if Present(m.destino) && m.destino.value == k then m.quantidade else 0)
                      - (if Present(m.origem) && m.origem.value == k then m.quantidade else 0))
  {
  }

  /**
   * The buckets are exactly the raw truthy names of the rows, and each holds
   * the inflow, the outflow and their difference.
   */
  lemma {:induction false} SummariseSpec(rows: seq<Movement>)
    ensures Summarise(rows).Keys == Names(rows)
    ensures forall k :: Get(Summarise(rows), k) == Summary(Inflow(rows, k), Outflow(rows, k), Inflow(rows, k) - Outflow(rows, k))
  {
    if rows != [] {
      var prefix, m := rows[..|rows| - 1], rows[|rows| - 1];
      SummariseSpec(prefix);
      forall k
        ensures Get(Summarise(rows), k) == Summary(Inflow(rows, k), Outflow(rows, k), Inflow(rows, k) - Outflow(rows, k))
      {
        AreaStepGet(Summarise(prefix), m, k);
      }
    }
  }

  /** In every bucket, saldo = entradas − saidas. */
  lemma SummaryBalanced(rows: seq<Movement>)
    ensures forall k :: k in Summarise(rows) ==> Summarise(rows)[k].saldo == Summarise(rows)[k].entradas - Summarise(rows)[k].saidas
  {
    SummariseSpec(rows);
    forall k | k in Summarise(rows)
      ensures Summarise(rows)[k].saldo == Summarise(rows)[k].entradas - Summarise(rows)[k].saidas
    {
      assert Get(Summarise(rows), k) == Summarise(rows)[k];
    }
  }

  lemma {:induction false} FlowsNonNegative(rows: seq<Movement>, k: string)
    requires forall i :: 0 <= i < |rows| ==> rows[i].quantidade >= 0
    ensures Inflow(rows, k) >= 0 && Outflow(rows, k) >= 0
  {
    if rows != [] {
      FlowsNonNegative(rows[..|rows| - 1], k);
      assert rows[|rows| - 1].quantidade >= 0;
    }
  }

  /** With non-negative quantities no bucket shows a negative entradas or saidas. */
  lemma SummaryNonNegative(rows: seq<Movement>, k: string)
    requires forall i :: 0 <= i < |rows| ==> rows[i].quantidade >= 0
    requires k in Summarise(rows)
    ensures Summarise(rows)[k].entradas >= 0 && Summarise(rows)[k].saidas >= 0
  {
    SummariseSpec(rows);
    FlowsNonNegative(rows, k);
    assert Get(Summarise(rows), k) == Summarise(rows)[k];
  }

  /** A name is a bucket exactly when some row carries it as a truthy origem or destino. */
  lemma {:induction false} NamesSpec(rows: seq<Movement>, k: string)
    ensures k in Names(rows) <==> exists i :: 0 <= i < |rows| && k in RowNames(rows[i])
  {
    if rows != [] {
      var prefix := rows[..|rows| - 1];
      NamesSpec(prefix, k);
      if k in Names(rows) && k !in Names(prefix) {
        assert k in RowNames(rows[|rows| - 1]);
      }
      if exists i :: 0 <= i < |rows| && k in RowNames(rows[i]) {
        var i :| 0 <= i < |rows| && k in RowNames(rows[i]);
        if i < |rows| - 1 {
          assert prefix[i] == rows[i];
        }
      }
    }
  }

  /** `GET /api/resumo-mensal`: the response for `?ano=…&mes=…` over the whole ledger. */
  function MonthlySummary(ledger: seq<Movement>, ano: Num, mes: Num): (r: Result<map<string, Summary>, PeriodError>)
    ensures r.Err? <==> CheckPeriod(ano, mes, "Erro ao gerar resumo mensal").Err?
    ensures r.Err? ==> r.error == CheckPeriod(ano, mes, "Erro ao gerar resumo mensal").error
    ensures r.Ok? ==> r.value.Keys == Names(Window(ledger, ano.value, mes.value))
  {
    match CheckPeriod(ano, mes, "Erro ao gerar resumo mensal")
    case Err(e) => Err(e)
    case Ok(p) =>
      SummariseSpec(Window(ledger, p.0, p.1));
      Ok(Summarise(Window(ledger, p.0, p.1)))
  }

  /**
   * Every bucket of an accepted query is the flow of that exact name within
   * the month: rows outside the month count nothing.
   */
  lemma MonthlySummaryFlows(ledger: seq<Movement>, ano: Num, mes: Num, k: string)
    requires MonthlySummary(ledger, ano, mes).Ok?
    ensures var w := Window(ledger, ano.value, mes.value);
      Get(MonthlySummary(ledger, ano, mes).value, k) == Summary(Inflow(w, k), Outflow(w, k), Inflow(w, k) - Outflow(w, k))
  {
    SummariseSpec(Window(ledger, ano.value, mes.value));
  }
}

=== FILE: saldo.dfy ===
/**
 * `calcularSaldo`: the signed balance of one (area, pallet type), a fold over
 * the ledger that matches names after trimming and lower-casing them.
 */
module Saldo {
  import opened Wrappers
  import opened Text
  import opened Ledger
  import opened Seqs

  /**
   * `norm`: `String(s ?? "").trim().toLowerCase()`. Accents are kept. Only
   * a missing or blank name normalises to "".
   */
  function Norm(s: Option<string>): (r: string)
    ensures IsTrimmed(r)
    ensures r == [] <==> Trim(OrEmpty(s)) == []
  {
    var t := Trim(OrEmpty(s));
    LowerKeepsTrimmed(t);
    Lower(t)
  }

  /** `norm` keeps every character but the surrounding white space, lower-cased. */
  lemma NormKeepsLetters(s: Option<string>)
    ensures NonSpace(Norm(s)) == Lower(NonSpace(OrEmpty(s)))
  {
    NonSpaceTrim(OrEmpty(s));
    NonSpaceLower(Trim(OrEmpty(s)));
  }

  /**
   * What one row adds to the running balance of the normalised (area, type):
   * nothing, its quantity or minus its quantity, and nothing unless it is of
   * the type and names the area at one end.
   */
  function Step(m: Movement, area: string, tipo: string): (r: int)
    ensures r == 0 || r == m.quantidade || r == -m.quantidade
    ensures r != 0 ==> Norm(Some(m.tipoPalete)) == tipo && (Norm(m.destino) == area || Norm(m.origem) == area)
  {
    if Norm(Some(m.tipoPalete)) != tipo then 0
    else if !Present(m.origem) && Norm(m.destino) == area then m.quantidade
    else
      (if Norm(m.destino) == area then m.quantidade else 0)
      - (if Norm(m.origem) == area then m.quantidade else 0)
  }

  /** The `reduce` over the rows, left to right, from 0: for a named area, what came in minus what went out. */
  function Fold(ledger: seq<Movement>, area: string, tipo: string): (r: int)
    ensures area != [] ==> r == Inflow(ledger, area, tipo) - Outflow(ledger, area, tipo)
  {
    if ledger == [] then 0
    else
      var m := ledger[|ledger| - 1];
      assert !Present(m.origem) ==> Norm(m.origem) == [];
      Fold(ledger[..|ledger| - 1], area, tipo) + Step(m, area, tipo)
  }

  /** `calcularSaldo(movimentacoes, area, tipoPalete)`. */
  function Balance(ledger: seq<Movement>, area: string, tipo: string): (r: int)
    ensures ledger == [] ==> r == 0
  {
    Fold(ledger, Norm(Some(area)), Norm(Some(tipo)))
  }

  /** Σ quantity of rows of the type whose destination is the area. */
  function Inflow(ledger: seq<Movement>, area: string, tipo: string): int {
    if ledger == [] then 0
    else
      var m := ledger[|ledger| - 1];
      Inflow(ledger[..|ledger| - 1], area, tipo)
      + (if Norm(Some(m.tipoPalete)) == tipo && Norm(m.destino) == area then m.quantidade else 0)
  }

  /** Σ quantity of rows of the type whose origin is the area. */
  function Outflow(ledger: seq<Movement>, area: string, tipo: string): int {
    if ledger == [] then 0
    else
      var m := ledger[|ledger| - 1];
      Outflow(ledger[..|ledger| - 1], area, tipo)
      + (if Norm(Some(m.tipoPalete)) == tipo && Norm(m.origem) == area then m.quantidade else 0)
  }

  /** Appending one row changes the balance by that row's step. */
  lemma BalanceSnoc(ledger: seq<Movement>, m: Movement, area: string, tipo: string)
    ensures Balance(ledger + [m], area, tipo)
         == Balance(ledger, area, tipo) + Step(m, Norm(Some(area)), Norm(Some(tipo)))
  {
    assert (ledger + [m])[..|ledger|] == ledger;
  }

  /** The balance is additive over concatenation of ledgers. */
  lemma {:induction false} BalanceAppend(a: seq<Movement>, b: seq<Movement>, area: string, tipo: string)
    ensures Balance(a + b, area, tipo) == Balance(a, area, tipo) + Balance(b, area, tipo)
  {
    if b == [] {
      assert a + b == a;
    } else {
      var b' := b[..|b| - 1];
      var m := b[|b| - 1];
      assert a + b == (a + b') + [m];
      assert b == b' + [m];
      BalanceSnoc(a + b', m, area, tipo);
      BalanceSnoc(b', m, area, tipo);
      BalanceAppend(a, b', area, tipo);
    }
  }

  /** Taking one row out of the middle removes exactly its step. */
  lemma BalanceRemoveAt(b: seq<Movement>, i: nat, area: string, tipo: string)
    requires i < |b|
    ensures Balance(b, area, tipo)
         == Balance(b[..i] + b[i + 1..], area, tipo) + Step(b[i], Norm(Some(area)), Norm(Some(tipo)))
  {
    var b1, b2 := b[..i], b[i + 1..];
    assert b == (b1 + [b[i]]) + b2;
    BalanceAppend(b1 + [b[i]], b2, area, tipo);
    BalanceSnoc(b1, b[i], area, tipo);
    BalanceAppend(b1, b2, area, tipo);
  }

  /** The balance does not depend on the order of the rows. */
  lemma {:induction false} BalancePermutation(a: seq<Movement>, b: seq<Movement>, area: string, tipo: string)
    requires multiset(a) == multiset(b)
    ensures Balance(a, area, tipo) == Balance(b, area, tipo)
    decreases |a|
  {
    if a == [] {
      assert |multiset(b)| == 0;
    } else {
      var a' := a[..|a| - 1];
      var m := a[|a| - 1];
      assert a == a' + [m];
      assert m in multiset(b);
      var i :| 0 <= i < |b| && b[i] == m;
      var b' := b[..i] + b[i + 1..];
      PermutationRemove(a, b, i);
      BalancePermutation(a', b', area, tipo);
      BalanceSnoc(a', m, area, tipo);
      BalanceRemoveAt(b, i, area, tipo);
    }
  }

  /** For a named area: incoming quantities minus outgoing ones; an entrada only adds. */
  lemma BalanceIsInflowMinusOutflow(ledger: seq<Movement>, area: string, tipo: string)
    requires Norm(Some(area)) != []
    ensures Balance(ledger, area, tipo)
         == Inflow(ledger, Norm(Some(area)), Norm(Some(tipo))) - Outflow(ledger, Norm(Some(area)), Norm(Some(tipo)))
  {
  }

  /** A row of another pallet type leaves every balance of this type alone. */
  lemma OtherTypeContributesNothing(ledger: seq<Movement>, m: Movement, area: string, tipo: string)
    requires Norm(Some(m.tipoPalete)) != Norm(Some(tipo))
    ensures Balance(ledger + [m], area, tipo) == Balance(ledger, area, tipo)
  {
    BalanceSnoc(ledger, m, area, tipo);
  }

  /** A row whose origin and destination name the same place moves nothing, for any area. */
  lemma LoopContributesNothing(ledger: seq<Movement>, m: Movement, area: string, tipo: string)
    requires Present(m.origem) && Norm(m.origem) == Norm(m.destino)
    ensures Balance(ledger + [m], area, tipo) == Balance(ledger, area, tipo)
  {
    BalanceSnoc(ledger, m, area, tipo);
  }

  /**
   * An entrada of the type credits its destination by its quantity and leaves
   * every other named area as it was.
   */
  lemma EntradaCreditsDestinationOnly(ledger: seq<Movement>, m: Movement, area: string, tipo: string)
    requires !Present(m.origem) && Norm(Some(m.tipoPalete)) == Norm(Some(tipo))
    requires Norm(Some(area)) != []
    ensures Norm(m.destino) == Norm(Some(area)) ==>
      Balance(ledger + [m], area, tipo) == Balance(ledger, area, tipo) + m.quantidade
    ensures Norm(m.destino) != Norm(Some(area)) ==>
      Balance(ledger + [m], area, tipo) == Balance(ledger, area, tipo)
  {
    BalanceSnoc(ledger, m, area, tipo);
    assert Trim(OrEmpty(m.origem)) == [];
  }

  /** With an empty area name an entrada to a named area is debited, since `norm(null)` is "". */
  lemma EntradaDebitsEmptyArea(m: Movement)
    requires m == Movement(None, Some("A"), "PBR", 5, None, None, Instant(0, 0))
    ensures Balance([m], "", "PBR") == -5
  {
    assert [] + [m] == [m];
    BalanceSnoc([], m, "", "PBR");
    assert Norm(m.destino) == "a" by {
      TrimTrimmed("A");
    }
    assert Norm(m.origem) == [];
    assert Norm(Some("")) == [];
  }

  /** Matching ignores case: an upper-cased name normalises like the original. */
  lemma NormIgnoresCase(s: string)
    ensures Norm(Some(Upper(s))) == Norm(Some(s))
  {
    TrimUpper(s);
    LowerUpper(Trim(s));
  }

  /** A name read by `trim().toUpperCase()` normalises like the raw name. */
  lemma NormOfUpperField(x: Option<string>)
    ensures Norm(Some(UpperField(x))) == Norm(x)
  {
    var t := Trim(OrEmpty(x));
    UpperKeepsTrimmed(t);
    TrimTrimmed(Upper(t));
    LowerUpper(t);
  }

  /** Matching ignores white space around a name. */
  lemma {:induction false} NormIgnoresPadding(pad: string, s: string)
    requires AllSpace(pad)
    ensures Norm(Some(pad + s + pad)) == Norm(Some(s))
  {
    TrimStartPad(pad, s + pad);
    assert pad + s + pad == pad + (s + pad);
    TrimStartPad(pad, s);
    TrimEndPad(TrimStart(s), pad);
    TrimStartKeepsTail(s, pad);
  }

  lemma {:induction false} TrimStartPad(pad: string, s: string)
    requires AllSpace(pad)
    ensures TrimStart(pad + s) == TrimStart(s)
    decreases |pad|
  {
    if pad != [] {
      assert (pad + s)[1..] == pad[1..] + s;
      TrimStartPad(pad[1..], s);
    } else {
      assert pad + s == s;
    }
  }

  lemma {:induction false} TrimEndPad(s: string, pad: string)
    requires AllSpace(pad)
    ensures TrimEnd(s + pad) == TrimEnd(s)
    decreases |pad|
  {
    if pad != [] {
      assert (s + pad)[..|s + pad| - 1] == s + pad[..|pad| - 1];
      TrimEndPad(s, pad[..|pad| - 1]);
    } else {
      assert s + pad == s;
    }
  }

  /** Padding on the right survives trimming on the left unless everything before it is blank. */
  lemma {:induction false} TrimStartKeepsTail(s: string, pad: string)
    requires AllSpace(pad)
    ensures TrimStart(s) != [] ==> TrimStart(s + pad) == TrimStart(s) + pad
    ensures TrimStart(s) == [] ==> TrimStart(s + pad) == []
    decreases |s|
  {
    if s == [] {
      assert s + pad == pad;
      TrimStartPad(pad, []);
      assert pad + [] == pad;
    } else if IsSpace(s[0]) {
      assert (s + pad)[1..] == s[1..] + pad;
      TrimStartKeepsTail(s[1..], pad);
    }
  }

  /**
   * Accents are not folded: two trimmed names that differ only in that one
   * has an accented letter where the other has the bare letter (as
   * "DESCARTÁVEL" and "DESCARTAVEL") never match.
   */
  lemma AccentsDistinguishNames(x: string, y: string, i: nat)
    requires IsTrimmed(x) && IsTrimmed(y) && |x| == |y| && i < |x|
    requires BaseLetter(y[i]) == x[i] != y[i]
    ensures Norm(Some(x)) != Norm(Some(y))
  {
    TrimTrimmed(x);
    TrimTrimmed(y);
    LowerAt(x, i);
    LowerAt(y, i);
    assert Norm(Some(x))[i] != Norm(Some(y))[i];
  }

  /** The worked example: 100 in to A, 40 moved A → B. */
  lemma WorkedExample(e: Movement, t: Movement)
    requires e == Movement(None, Some("A"), "PBR", 100, None, None, Instant(0, 0))
    requires t == Movement(Some("A"), Some("B"), "PBR", 40, None, None, Instant(0, 1))
    ensures Balance([e, t], "A", "PBR") == 60
    ensures Balance([e, t], "B", "PBR") == 40
  {
    assert Norm(Some("A")) == "a" by {
      TrimTrimmed("A");
    }
    assert Norm(Some("B")) == "b" by {
      TrimTrimmed("B");
    }
    EntradaThenTransfer(e, t, "A", "B", "PBR");
  }

  /** An entrada into `a` followed by a transfer from `a` to `b` leaves their difference in `a` and the transfer in `b`. */
  lemma EntradaThenTransfer(e: Movement, t: Movement, a: string, b: string, tipo: string)
    requires Norm(Some(a)) != [] && Norm(Some(b)) != [] && Norm(Some(a)) != Norm(Some(b))
    requires e.origem == None && e.destino == Some(a) && e.tipoPalete == tipo
    requires t.origem == Some(a) && t.destino == Some(b) && t.tipoPalete == tipo
    ensures Balance([e, t], a, tipo) == e.quantidade - t.quantidade
    ensures Balance([e, t], b, tipo) == t.quantidade
  {
    assert [e, t] == [e] + [t];
    assert [e] == [] + [e];
    assert Norm(e.origem) == [];
    BalanceSnoc([e], t, a, tipo);
    BalanceSnoc([], e, a, tipo);
    BalanceSnoc([e], t, b, tipo);
    BalanceSnoc([], e, b, tipo);
  }
}

=== FILE: seqs.dfy ===
/** Facts about sequences and multisets that the folds share. */
module Seqs {

  /** Deleting the last element of `a` and a matching element of `b` keeps them permutations of each other. */
  lemma PermutationRemove<T>(a: seq<T>, b: seq<T>, i: nat)
    requires multiset(a) == multiset(b)
    requires a != [] && i < |b| && b[i] == a[|a| - 1]
    ensures multiset(a[..|a| - 1]) == multiset(b[..i] + b[i + 1..])
  {
    var m := a[|a| - 1];
    assert a == a[..|a| - 1] + [m];
    assert b == b[..i] + [m] + b[i + 1..];
    assert multiset(b[..i] + b[i + 1..]) == multiset(b[..i]) + multiset(b[i + 1..]);
    assert multiset(b) == multiset(b[..i]) + multiset{m} + multiset(b[i + 1..]);
    assert multiset(a) == multiset(a[..|a| - 1]) + multiset{m};
    calc {
      multiset(a[..|a| - 1]);
      multiset(a) - multiset{m};
      multiset(b) - multiset{m};
      multiset(b[..i]) + multiset(b[i + 1..]);
    }
  }
}

=== FILE: suppliers.dfy ===
/**
 * `/api/fornecedores`: the supplier registry. Names are compared by
 * `normNome`, which is unique across the table; POST registers a name once,
 * PUT renames one supplier, found by id or by its old name.
 *
 * The `Fornecedor` table is the list of its rows; a successful call returns
 * the table after it and the row the response shows.
 */
module Suppliers {
  import opened Wrappers
  import opened Text
  import opened Ledger

  /**
   * `normNome`: trim, one blank for each run of white space, lower case.
   * Besides the blanks, the result holds exactly the name's other
   * characters, lower-cased, in order.
   */
  function NormNome(nome: string): (r: string)
    ensures IsTrimmed(r) && Collapsed(r)
    ensures NonSpace(r) == Lower(NonSpace(nome))
  {
    var t := Trim(nome);
    var c := CollapseSpaces(t);
    CollapseKeepsTrimmed(t);
    CollapseSpacesCollapsed(t);
    LowerKeepsTrimmed(c);
    LowerKeepsCollapsed(c);
    NonSpaceTrim(nome);
    NonSpaceLower(c);
    Lower(c)
  }

  /** The words of the normalised name are the name's words, each lower-cased. */
  lemma NormNomeWords(nome: string)
    ensures Words(NormNome(nome)) == LowerEach(Words(nome))
  {
    var c := CollapseSpaces(Trim(nome));
    WordsTrim(nome);
    CollapseSpacesWords(Trim(nome));
    WordsLower(c);
  }

  /** Names whose letters differ other than in case stay two suppliers. */
  lemma NormNomeSeparates(a: string, b: string)
    requires Lower(NonSpace(a)) != Lower(NonSpace(b))
    ensures NormNome(a) != NormNome(b)
  {
    var na, nb := NormNome(a), NormNome(b);
    assert NonSpace(na) != NonSpace(nb);
  }

  /**
   * Two names are one supplier exactly when their words agree up to case:
   * white space counts only as a boundary between words.
   */
  lemma NormNomeSameWords(a: string, b: string)
    ensures NormNome(a) == NormNome(b) <==> LowerEach(Words(a)) == LowerEach(Words(b))
  {
    NormNomeWords(a);
    NormNomeWords(b);
    if LowerEach(Words(a)) == LowerEach(Words(b)) {
      TidyByWords(NormNome(a), NormNome(b));
    }
  }

  /**
   * Moving a word boundary makes another supplier: "ab c" and "a bc" share
   * their letters, but not their first word.
   */
  lemma WordBoundariesSeparate(x: char, y: char, z: char, sp: char)
    requires !IsSpace(x) && !IsSpace(y) && !IsSpace(z) && IsSpace(sp)
    ensures NormNome([x, y, sp, z]) != NormNome([x, sp, y, z])
  {
    var a, b := [x, y, sp, z], [x, sp, y, z];
    FirstWordTwo(x, y, sp, z);
    FirstWordOne(x, sp, y, z);
    var wa, wb := Words(a), Words(b);
    assert |LowerEach(wa)[0]| == |Lower(wa[0])| == 2;
    assert |LowerEach(wb)[0]| == |Lower(wb[0])| == 1;
    NormNomeSameWords(a, b);
  }

  lemma FirstWordTwo(x: char, y: char, sp: char, z: char)
    requires !IsSpace(x) && !IsSpace(y) && IsSpace(sp)
    ensures Words([x, y, sp, z])[0] == [x, y]
  {
    WordsCons(sp, [z]);
    assert [sp] + [z] == [sp, z];
    WordsCons(y, [sp, z]);
    assert [y] + [sp, z] == [y, sp, z];
    WordsCons(x, [y, sp, z]);
    assert [x] + [y, sp, z] == [x, y, sp, z];
  }

  lemma FirstWordOne(x: char, sp: char, y: char, z: char)
    requires !IsSpace(x) && IsSpace(sp)
    ensures Words([x, sp, y, z])[0] == [x]
  {
    WordsCons(x, [sp, y, z]);
    assert [x] + [sp, y, z] == [x, sp, y, z];
  }

  /** A normalised name normalises to itself. */
  lemma NormNomeIdempotent(nome: string)
    ensures NormNome(NormNome(nome)) == NormNome(nome)
  {
    var n := NormNome(nome);
    TrimTrimmed(n);
    CollapsedFixed(n);
    LowerLower(CollapseSpaces(Trim(nome)));
  }

  /** Names that differ only in case normalise alike. */
  lemma NormNomeIgnoresCase(nome: string)
    ensures NormNome(Upper(nome)) == NormNome(nome)
  {
    TrimUpper(nome);
    UpperCollapse(Trim(nome));
    LowerUpper(CollapseSpaces(Trim(nome)));
  }

  lemma {:induction false} UpperCollapse(s: string)
    ensures CollapseSpaces(Upper(s)) == Upper(CollapseSpaces(s))
    decreases |s|
  {
    if s != [] {
      CaseKeepsSpace(s[0]);
      if IsSpace(s[0]) {
        TrimStartUpper(s);
        UpperCollapse(TrimStart(s));
      } else {
        UpperCollapse(s[1..]);
      }
    }
  }

  /** One `Fornecedor` row. */
  datatype Supplier = Supplier(id: string, nome: string, nomeNorm: string)

  /** An error answer: HTTP status and message. */
  datatype Failure = Failure(status: int, message: string)

  /** What the routes keep true of the table: unique ids, unique `nomeNorm`, each the `normNome` of its row. */
  predicate Valid(store: seq<Supplier>) {
    && (forall i, j :: 0 <= i < j < |store| ==> store[i].id != store[j].id)
    && (forall i, j :: 0 <= i < j < |store| ==> store[i].nomeNorm != store[j].nomeNorm)
    && (forall i :: 0 <= i < |store| ==> store[i].nomeNorm == NormNome(store[i].nome))
  }

  /** `findUnique({ where: { nomeNorm } })`: the first row with that normalised name. */
  function FindByNorm(store: seq<Supplier>, norm: string): (r: Option<nat>)
    ensures r.Some? ==> r.value < |store| && store[r.value].nomeNorm == norm
    ensures r.Some? ==> forall j :: 0 <= j < r.value ==> store[j].nomeNorm != norm
    ensures r.None? <==> forall j :: 0 <= j < |store| ==> store[j].nomeNorm != norm
  {
    if store == [] then None
    else if store[0].nomeNorm == norm then Some(0)
    else match FindByNorm(store[1..], norm)
      case None => None
      case Some(i) => Some(i + 1)
  }

  /** `where: { id }`: the first row with that id. */
  function FindById(store: seq<Supplier>, id: string): (r: Option<nat>)
    ensures r.Some? ==> r.value < |store| && store[r.value].id == id
    ensures r.None? <==> forall j :: 0 <= j < |store| ==> store[j].id != id
  {
    if store == [] then None
    else if store[0].id == id then Some(0)
    else match FindById(store[1..], id)
      case None => None
      case Some(i) => Some(i + 1)
  }

  /**
   * POST `{ nome }`. A blank name answers 400; a name already
   * registered under its normalised form answers that row; otherwise a row
   * is created with id `newId`, and a clash on that id is answered 500.
   */
  function Post(store: seq<Supplier>, nome: Option<string>, newId: string): (r: Result<(seq<Supplier>, Supplier), Failure>)
    ensures Trim(OrEmpty(nome)) == [] <==> r == Err(Failure(400, "Nome é obrigatório"))
    ensures r.Ok? ==> r.value.1.nomeNorm == NormNome(Trim(OrEmpty(nome)))
    ensures r.Ok? && FindByNorm(store, NormNome(Trim(OrEmpty(nome)))).Some? ==> r.value.0 == store && r.value.1 in store
    ensures r.Ok? && FindByNorm(store, NormNome(Trim(OrEmpty(nome)))).None? ==>
      r.value.0 == store + [Supplier(newId, Trim(OrEmpty(nome)), NormNome(Trim(OrEmpty(nome))))]
      && r.value.1 == Supplier(newId, Trim(OrEmpty(nome)), NormNome(Trim(OrEmpty(nome))))
    ensures r.Err? && r != Err(Failure(400, "Nome é obrigatório")) ==> r == Err(Failure(500, "Erro ao salvar fornecedor"))
    ensures Trim(OrEmpty(nome)) != [] && FindByNorm(store, NormNome(Trim(OrEmpty(nome)))).Some? ==>
      r == Ok((store, store[FindByNorm(store, NormNome(Trim(OrEmpty(nome)))).value]))
    ensures r == Err(Failure(500, "Erro ao salvar fornecedor")) <==>
      Trim(OrEmpty(nome)) != [] && FindByNorm(store, NormNome(Trim(OrEmpty(nome)))).None? && FindById(store, newId).Some?
  {
    var n := Trim(OrEmpty(nome));
    if n == [] then Err(Failure(400, "Nome é obrigatório"))
    else
      var norm := NormNome(n);
      match FindByNorm(store, norm)
      case Some(i) => Ok((store, store[i]))
      case None =>
        if FindById(store, newId).Some? then Err(Failure(500, "Erro ao salvar fornecedor"))
        else
          var row := Supplier(newId, n, norm);
          Ok((store + [row], row))
  }

  /** POST keeps the table valid. */
  lemma PostKeepsValid(store: seq<Supplier>, nome: Option<string>, newId: string)
    requires Valid(store)
    requires Post(store, nome, newId).Ok?
    ensures Valid(Post(store, nome, newId).value.0)
  {
    var n := Trim(OrEmpty(nome));
    if FindByNorm(store, NormNome(n)).None? {
      var row := Supplier(newId, n, NormNome(n));
      var after := store + [row];
      assert Post(store, nome, newId).value.0 == after;
      assert FindById(store, newId).None?;
      forall i, j | 0 <= i < j < |after|
        ensures after[i].id != after[j].id && after[i].nomeNorm != after[j].nomeNorm
      {
        if j == |store| {
          assert after[i] == store[i] && after[j] == row;
        } else {
          assert after[i] == store[i] && after[j] == store[j];
        }
      }
      forall i | 0 <= i < |after|
        ensures after[i].nomeNorm == NormNome(after[i].nome)
      {
        if i < |store| {
          assert after[i] == store[i];
        }
      }
    }
  }

  /**
   * Registering is idempotent: posting the same name again, with any id,
   * leaves the table as it is and answers the same row.
   */
  lemma PostIdempotent(store: seq<Supplier>, nome: Option<string>, newId: string, otherId: string)
    requires Valid(store)
    requires Post(store, nome, newId).Ok?
    ensures var (after, row) := Post(store, nome, newId).value;
      Post(after, nome, otherId) == Ok((after, row))
  {
    var n := Trim(OrEmpty(nome));
    var (after, row) := Post(store, nome, newId).value;
    PostKeepsValid(store, nome, newId);
    var i :| 0 <= i < |after| && after[i] == row;
    assert after[i].nomeNorm == NormNome(n);
    var j := FindByNorm(after, NormNome(n)).value;
    assert i == j;
  }

  /** Names that differ only in case and white space register as one supplier. */
  lemma PostMergesSpellings(store: seq<Supplier>, a: string, b: string, newId: string, otherId: string)
    requires Valid(store)
    requires NormNome(Trim(a)) == NormNome(Trim(b)) && Trim(b) != []
    requires Post(store, Some(a), newId).Ok?
    ensures var (after, row) := Post(store, Some(a), newId).value;
      Post(after, Some(b), otherId) == Ok((after, row))
  {
    var (after, row) := Post(store, Some(a), newId).value;
    PostKeepsValid(store, Some(a), newId);
    var i :| 0 <= i < |after| && after[i] == row;
    var j := FindByNorm(after, NormNome(Trim(b))).value;
    assert i == j;
  }

  /** The body of a PUT: `{ id, nome }` or `{ nomeAntigo, nomeNovo }`. */
  datatype PutBody = PutBody(id: Option<string>, nome: Option<string>, nomeNovo: Option<string>, nomeAntigo: Option<string>)

  /** `String(body?.nome ?? body?.nomeNovo ?? "").trim()`. */
  function NewName(body: PutBody): string {
    match body.nome
    case Some(n) => Trim(n)
    case None => Trim(OrEmpty(body.nomeNovo))
  }

  /** `body?.id ? String(body.id) : null`. */
  function TargetId(body: PutBody): Option<string> {
    if Present(body.id) then body.id else None
  }

  /** Whether another row already holds the new normalised name: PUT's duplicate check. */
  predicate Conflicts(store: seq<Supplier>, body: PutBody) {
    var found := FindByNorm(store, NormNome(NewName(body)));
    found.Some? && (TargetId(body).None? || store[found.value].id != TargetId(body).value)
  }

  /**
   * The row PUT renames, or why there is none: by id, an unknown id makes
   * the update throw (500); without an id, a blank old name answers 400 and
   * an old name no row holds under `normNome` answers 404.
   */
  function Target(store: seq<Supplier>, body: PutBody): (r: Result<nat, Failure>)
    ensures r.Ok? ==> r.value < |store|
    ensures r.Ok? && TargetId(body).Some? ==> store[r.value].id == TargetId(body).value
    ensures r.Ok? && TargetId(body).None? ==> store[r.value].nomeNorm == NormNome(Trim(OrEmpty(body.nomeAntigo)))
    ensures r == Err(Failure(500, "Erro ao editar fornecedor")) <==>
      TargetId(body).Some? && forall j :: 0 <= j < |store| ==> store[j].id != TargetId(body).value
    ensures r == Err(Failure(400, "Informe id ou nomeAntigo")) <==>
      TargetId(body).None? && Trim(OrEmpty(body.nomeAntigo)) == []
    ensures r == Err(Failure(404, "Fornecedor não encontrado")) <==>
      && TargetId(body).None? && Trim(OrEmpty(body.nomeAntigo)) != []
      && forall j :: 0 <= j < |store| ==> store[j].nomeNorm != NormNome(Trim(OrEmpty(body.nomeAntigo)))
    ensures r.Err? ==> r.error.status in {400, 404, 500}
  {
    match TargetId(body)
    case Some(id) =>
      (match FindById(store, id)
       case None => Err(Failure(500, "Erro ao editar fornecedor"))
       case Some(k) => Ok(k))
    case None =>
      var antigo := Trim(OrEmpty(body.nomeAntigo));
      if antigo == [] then Err(Failure(400, "Informe id ou nomeAntigo"))
      else match FindByNorm(store, NormNome(antigo))
        case None => Err(Failure(404, "Fornecedor não encontrado"))
        case Some(k) => Ok(k)
  }

  /**
   * PUT. A blank new name answers 400; a new name held by
   * another row (or by any row when no id is given) answers 409; otherwise
   * the target's name is replaced. An unknown id makes the update throw,
   * answered 500; an unknown old name answers 404.
   */
  function Put(store: seq<Supplier>, body: PutBody): (r: Result<(seq<Supplier>, Supplier), Failure>)
    ensures NewName(body) == [] <==> r == Err(Failure(400, "Nome novo é obrigatório"))
    ensures NewName(body) != [] && Conflicts(store, body) <==> r.Err? && r.error.status == 409
    ensures NewName(body) != [] && !Conflicts(store, body) && Target(store, body).Err? <==>
      r.Err? && r.error.status != 409 && r != Err(Failure(400, "Nome novo é obrigatório"))
    ensures NewName(body) != [] && !Conflicts(store, body) && Target(store, body).Err? ==>
      r == Err(Target(store, body).error)
    ensures r.Ok? ==> Target(store, body).Ok? && Target(store, body).value < |store|
    ensures r.Ok? ==>
      var k := Target(store, body).value;
      var row := Supplier(store[k].id, NewName(body), NormNome(NewName(body)));
      r.value == (store[k := row], row)
  {
    var nomeNovo := NewName(body);
    if nomeNovo == [] then Err(Failure(400, "Nome novo é obrigatório"))
    else
      var norm := NormNome(nomeNovo);
      var found := FindByNorm(store, norm);
      if Conflicts(store, body) then
        Err(Failure(409, "Já existe fornecedor com esse nome: \"" + store[found.value].nome + "\""))
      else
        match Target(store, body)
        case Err(e) => Err(e)
        case Ok(k) =>
          var row := Supplier(store[k].id, nomeNovo, norm);
          Ok((store[k := row], row))
  }

  /** After a successful PUT's checks, no row but the target holds the new normalised name. */
  lemma NoOtherHoldsNewName(store: seq<Supplier>, body: PutBody)
    requires Valid(store) && Put(store, body).Ok?
    ensures forall j :: 0 <= j < |store| && j != Target(store, body).value ==> store[j].nomeNorm != NormNome(NewName(body))
  {
    var k := Target(store, body).value;
    var norm := NormNome(NewName(body));
    var found := FindByNorm(store, norm);
    if found.Some? {
      assert store[found.value].id == store[k].id;
      assert found.value == k;
    }
  }

  /** A successful PUT keeps the table valid: no two rows end up with one normalised name. */
  lemma PutKeepsValid(store: seq<Supplier>, body: PutBody)
    requires Valid(store)
    requires Put(store, body).Ok?
    ensures Valid(Put(store, body).value.0)
  {
    var k := Target(store, body).value;
    var row := Put(store, body).value.1;
    NoOtherHoldsNewName(store, body);
    ReplaceKeepsValid(store, k, row);
  }

  /** Replacing one row keeps the table valid when the id stays and no other row holds the new norm. */
  lemma ReplaceKeepsValid(store: seq<Supplier>, k: nat, row: Supplier)
    requires Valid(store) && k < |store|
    requires row.id == store[k].id && row.nomeNorm == NormNome(row.nome)
    requires forall j :: 0 <= j < |store| && j != k ==> store[j].nomeNorm != row.nomeNorm
    ensures Valid(store[k := row])
  {
    var after := store[k := row];
    forall i, j | 0 <= i < j < |after|
      ensures after[i].id != after[j].id && after[i].nomeNorm != after[j].nomeNorm
    {
      assert after[i].id == store[i].id && after[j].id == store[j].id;
    }
  }

  /** A successful PUT renames its one target and changes no other row, nor any id. */
  lemma PutChangesOnlyTarget(store: seq<Supplier>, body: PutBody, i: int)
    requires Put(store, body).Ok? && 0 <= i < |store|
    ensures |Put(store, body).value.0| == |store|
    ensures Put(store, body).value.0[i].id == store[i].id
    ensures i != Target(store, body).value ==> Put(store, body).value.0[i] == store[i]
  {
  }
}

=== FILE: text.dfy ===
/**
 * The string operations the routes use: `trim`, `toUpperCase`, `toLowerCase`,
 * the `\s+` collapse of the supplier names, accent stripping by NFD, and
 * `String(n)` for integers.
 *
 * Case mapping covers Basic Latin and the Latin-1 Supplement letters that
 * have a one-to-one case partner, plus U+00FF/U+0178; every other character
 * is treated as caseless.
 */
module Text {
  import opened Wrappers

  /** JavaScript white space and line terminators: what `trim()` removes and `\s` matches. */
  predicate IsSpace(c: char) {
    var k := c as int;
    k == 0x09 || k == 0x0A || k == 0x0B || k == 0x0C || k == 0x0D || k == 0x20
    || k == 0xA0 || k == 0x1680 || (0x2000 <= k <= 0x200A) || k == 0x2028 || k == 0x2029
    || k == 0x202F || k == 0x205F || k == 0x3000 || k == 0xFEFF
  }

  predicate AllSpace(s: string) {
    forall i :: 0 <= i < |s| ==> IsSpace(s[i])
  }

  /** Neither end of `s` is white space. */
  predicate IsTrimmed(s: string) {
    s == [] || (!IsSpace(s[0]) && !IsSpace(s[|s| - 1]))
  }

  function TrimStart(s: string): (r: string)
    ensures |r| <= |s|
    ensures s != [] && IsSpace(s[0]) ==> |r| < |s|
    ensures r == [] || !IsSpace(r[0])
  {
    if s == [] || !IsSpace(s[0]) then s else TrimStart(s[1..])
  }

  /** `TrimStart` drops a blank prefix and keeps the rest. */
  lemma TrimStartSpec(s: string)
    ensures TrimStart(s) == s[|s| - |TrimStart(s)|..]
    ensures AllSpace(s[..|s| - |TrimStart(s)|])
  {
    if s != [] && IsSpace(s[0]) {
      TrimStartSpec(s[1..]);
      var k := |s| - |TrimStart(s)|;
      assert s[..k] == [s[0]] + s[1..][..k - 1];
    }
  }

  function TrimEnd(s: string): (r: string)
    ensures |r| <= |s|
    ensures r == [] || !IsSpace(r[|r| - 1])
  {
    if s == [] || !IsSpace(s[|s| - 1]) then s else TrimEnd(s[..|s| - 1])
  }

  /** `TrimEnd` drops a blank suffix and keeps the rest. */
  lemma TrimEndSpec(s: string)
    ensures TrimEnd(s) == s[..|TrimEnd(s)|]
    ensures AllSpace(s[|TrimEnd(s)|..])
  {
    if s != [] && IsSpace(s[|s| - 1]) {
      TrimEndSpec(s[..|s| - 1]);
      var k := |TrimEnd(s)|;
      assert s[k..] == s[..|s| - 1][k..] + [s[|s| - 1]];
    }
  }

  /** How many leading characters `trim()` removes. */
  function TrimOffset(s: string): (k: nat)
    ensures k <= |s|
  {
    |s| - |TrimStart(s)|
  }

  /** `String.prototype.trim`: `s` without the white space at either end. */
  function Trim(s: string): (r: string)
    ensures IsTrimmed(r)
    ensures |r| <= |s|
  {
    var a := TrimStart(s);
    TrimEndSpec(a);
    TrimEnd(a)
  }

  /** `trim()` cuts only white space, from the ends, and empties exactly the blank strings. */
  lemma TrimSpec(s: string)
    ensures TrimOffset(s) + |Trim(s)| <= |s| && Trim(s) == s[TrimOffset(s)..TrimOffset(s) + |Trim(s)|]
    ensures AllSpace(s[..TrimOffset(s)]) && AllSpace(s[TrimOffset(s) + |Trim(s)|..])
    ensures Trim(s) == [] <==> AllSpace(s)
  {
    var a := TrimStart(s);
    var r := TrimEnd(a);
    var i := |s| - |a|;
    TrimStartSpec(s);
    TrimEndSpec(a);
    assert s[i + |r|..] == a[|r|..];
    assert r == [] ==> AllSpace(s) by {
      if r == [] {
        assert s[..i] == s;
      }
    }
  }

  /** A string that starts with a non-space character is not blank. */
  lemma NotBlank(s: string)
    requires s != [] && !IsSpace(s[0])
    ensures Trim(s) != []
  {
    TrimSpec(s);
  }

  lemma TrimTrimmed(s: string)
    requires IsTrimmed(s)
    ensures Trim(s) == s
  {
  }

  function UpperChar(c: char): char {
    var k := c as int;
    if ('a' as int <= k <= 'z' as int) || (0xE0 <= k <= 0xFE && k != 0xF7) then (k - 0x20) as char
    else if k == 0xFF then 0x178 as char
    else c
  }

  function LowerChar(c: char): char {
    var k := c as int;
    if ('A' as int <= k <= 'Z' as int) || (0xC0 <= k <= 0xDE && k != 0xD7) then (k + 0x20) as char
    else if k == 0x178 then 0xFF as char
    else c
  }

  /** `String.prototype.toUpperCase`. */
  function Upper(s: string): (r: string)
    ensures |r| == |s|
  {
    if s == [] then [] else [UpperChar(s[0])] + Upper(s[1..])
  }

  /** `String.prototype.toLowerCase`. */
  function Lower(s: string): (r: string)
    ensures |r| == |s|
  {
    if s == [] then [] else [LowerChar(s[0])] + Lower(s[1..])
  }

  /** `toUpperCase` maps each character on its own. */
  lemma UpperAt(s: string, i: int)
    requires 0 <= i < |s|
    ensures Upper(s)[i] == UpperChar(s[i])
  {
    if i > 0 {
      UpperAt(s[1..], i - 1);
    }
  }

  lemma UpperSnoc(s: string, c: char)
    ensures Upper(s + [c]) == Upper(s) + [UpperChar(c)]
  {
    if s != [] {
      assert (s + [c])[1..] == s[1..] + [c];
      UpperSnoc(s[1..], c);
    }
  }

  /** `toLowerCase` maps each character on its own. */
  lemma LowerAt(s: string, i: int)
    requires 0 <= i < |s|
    ensures Lower(s)[i] == LowerChar(s[i])
  {
    if i > 0 {
      LowerAt(s[1..], i - 1);
    }
  }

  /** Case mapping never turns a space into a non-space or back. */
  lemma CaseKeepsSpace(c: char)
    ensures IsSpace(UpperChar(c)) == IsSpace(c)
    ensures IsSpace(LowerChar(c)) == IsSpace(c)
  {
  }

  lemma UpperKeepsTrimmed(s: string)
    requires IsTrimmed(s)
    ensures IsTrimmed(Upper(s))
  {
    if s != [] {
      CaseKeepsSpace(s[0]);
      CaseKeepsSpace(s[|s| - 1]);
      UpperAt(s, 0);
      UpperAt(s, |s| - 1);
    }
  }

  lemma TrimStartUpper(s: string)
    ensures TrimStart(Upper(s)) == Upper(TrimStart(s))
  {
    if s != [] {
      CaseKeepsSpace(s[0]);
    }
  }

  lemma {:induction false} TrimEndUpper(s: string)
    ensures TrimEnd(Upper(s)) == Upper(TrimEnd(s))
    decreases |s|
  {
    if s != [] {
      var init, c := s[..|s| - 1], s[|s| - 1];
      assert s == init + [c];
      UpperSnoc(init, c);
      CaseKeepsSpace(c);
      var u := Upper(s);
      assert u[|u| - 1] == UpperChar(c) && u[..|u| - 1] == Upper(init);
      if IsSpace(c) {
        TrimEndUpper(init);
      }
    }
  }

  /** `toUpperCase` commutes with `trim`. */
  lemma TrimUpper(s: string)
    ensures Trim(Upper(s)) == Upper(Trim(s))
  {
    TrimStartUpper(s);
    TrimEndUpper(TrimStart(s));
  }

  /** Upper-casing twice is upper-casing once. */
  lemma UpperUpper(s: string)
    ensures Upper(Upper(s)) == Upper(s)
  {
    if s != [] {
      UpperUpper(s[1..]);
    }
  }

  /** Lower-casing an upper-cased character gives the lower-cased character. */
  lemma LowerUpperChar(c: char)
    ensures LowerChar(UpperChar(c)) == LowerChar(c)
  {
  }

  /** Lower-casing an upper-cased string gives the lower-cased string. */
  lemma LowerUpper(s: string)
    ensures Lower(Upper(s)) == Lower(s)
  {
    if s != [] {
      LowerUpperChar(s[0]);
      LowerUpper(s[1..]);
    }
  }

  /** Two upper-case strings that lower-case alike are equal: `toLowerCase` loses nothing on them. */
  lemma LowerInjectiveOnUpper(x: string, y: string)
    requires Lower(Upper(x)) == Lower(Upper(y))
    ensures Upper(x) == Upper(y)
  {
    var ux, uy := Upper(x), Upper(y);
    assert |ux| == |uy| by {
      assert |Lower(ux)| == |Lower(uy)|;
    }
    forall i | 0 <= i < |ux|
      ensures ux[i] == uy[i]
    {
      assert LowerChar(ux[i]) == LowerChar(uy[i]) by {
        LowerAt(ux, i);
        LowerAt(uy, i);
      }
      UpperAt(x, i);
      UpperAt(y, i);
    }
  }

  /** A precomposed Latin-1 letter's base letter under NFD; any other character is its own base. */
  function BaseLetter(c: char): char {
    var k := c as int;
    if 0xC0 <= k <= 0xC5 then 'A'
    else if k == 0xC7 then 'C'
    else if 0xC8 <= k <= 0xCB then 'E'
    else if 0xCC <= k <= 0xCF then 'I'
    else if k == 0xD1 then 'N'
    else if 0xD2 <= k <= 0xD6 then 'O'
    else if 0xD9 <= k <= 0xDC then 'U'
    else if k == 0xDD || k == 0x178 then 'Y'
    else if 0xE0 <= k <= 0xE5 then 'a'
    else if k == 0xE7 then 'c'
    else if 0xE8 <= k <= 0xEB then 'e'
    else if 0xEC <= k <= 0xEF then 'i'
    else if k == 0xF1 then 'n'
    else if 0xF2 <= k <= 0xF6 then 'o'
    else if 0xF9 <= k <= 0xFC then 'u'
    else if k == 0xFD || k == 0xFF then 'y'
    else c
  }

  /** The block U+0300..U+036F that `/[̀-ͯ]/g` removes. */
  predicate IsCombiningMark(c: char) {
    0x300 <= c as int <= 0x36F
  }

  /** A character that `normalize("NFD")` followed by mark removal leaves as it is. */
  predicate AccentFreeChar(c: char) {
    !IsCombiningMark(c) && BaseLetter(c) == c
  }

  predicate AccentFree(s: string) {
    forall i :: 0 <= i < |s| ==> AccentFreeChar(s[i])
  }

  /** `s.normalize("NFD").replace(/[̀-ͯ]/g, "")`. */
  function StripAccents(s: string): (r: string)
    ensures AccentFree(r)
    ensures |r| <= |s|
    ensures AccentFree(s) ==> r == s
  {
    if s == [] then []
    else if IsCombiningMark(s[0]) then StripAccents(s[1..])
    else [BaseLetter(s[0])] + StripAccents(s[1..])
  }

  /**
   * The words of `s`: its maximal runs of non-space characters, in order,
   * read one character at a time. A non-space character joins the word of
   * the character after it, when that one is not white space too.
   */
  function Words(s: string): (r: seq<string>)
    ensures r == [] <==> AllSpace(s)
    ensures forall i :: 0 <= i < |r| ==> r[i] != []
    ensures forall i, j :: 0 <= i < |r| && 0 <= j < |r[i]| ==> !IsSpace(r[i][j])
    decreases |s|
  {
    if s == [] then []
    else if IsSpace(s[0]) then Words(s[1..])
    else
      var ws := Words(s[1..]);
      if s[1..] != [] && !IsSpace(s[1]) then [[s[0]] + ws[0]] + ws[1..]
      else [[s[0]]] + ws
  }

  lemma WordsCons(c: char, t: string)
    ensures Words([c] + t) ==
      if IsSpace(c) then Words(t)
      else if t != [] && !IsSpace(t[0]) then [[c] + Words(t)[0]] + Words(t)[1..]
      else [[c]] + Words(t)
  {
    assert ([c] + t)[1..] == t;
  }

  /** Leading white space starts no word. */
  lemma {:induction false} WordsTrimStart(s: string)
    ensures Words(TrimStart(s)) == Words(s)
  {
    if s != [] && IsSpace(s[0]) {
      WordsTrimStart(s[1..]);
    }
  }

  /** Trailing white space ends no word. */
  lemma {:induction false} WordsSnocSpace(s: string, c: char)
    requires IsSpace(c)
    ensures Words(s + [c]) == Words(s)
  {
    if s == [] {
      WordsCons(c, []);
      assert [c] + [] == s + [c];
    } else {
      assert s + [c] == [s[0]] + (s[1..] + [c]);
      assert s == [s[0]] + s[1..];
      WordsCons(s[0], s[1..] + [c]);
      WordsCons(s[0], s[1..]);
      WordsSnocSpace(s[1..], c);
      if s[1..] != [] {
        assert (s[1..] + [c])[0] == s[1..][0];
      }
    }
  }

  lemma {:induction false} WordsTrimEnd(s: string)
    ensures Words(TrimEnd(s)) == Words(s)
    decreases |s|
  {
    if s != [] && IsSpace(s[|s| - 1]) {
      var p := s[..|s| - 1];
      assert s == p + [s[|s| - 1]];
      WordsSnocSpace(p, s[|s| - 1]);
      WordsTrimEnd(p);
    }
  }

  /** `trim()` keeps the words, each as it was. */
  lemma WordsTrim(s: string)
    ensures Words(Trim(s)) == Words(s)
  {
    WordsTrimStart(s);
    WordsTrimEnd(TrimStart(s));
  }

  /** Each word lower-cased. */
  function LowerEach(ws: seq<string>): seq<string> {
    if ws == [] then [] else [Lower(ws[0])] + LowerEach(ws[1..])
  }

  lemma LowerEachCons(w: string, ws: seq<string>)
    ensures LowerEach([w] + ws) == [Lower(w)] + LowerEach(ws)
  {
    assert ([w] + ws)[1..] == ws;
  }

  /** `toLowerCase` keeps the word boundaries and lower-cases each word. */
  lemma {:induction false} WordsLower(s: string)
    ensures Words(Lower(s)) == LowerEach(Words(s))
  {
    if s != [] {
      var c, t := s[0], s[1..];
      assert s == [c] + t;
      LowerCons(c, t);
      CaseKeepsSpace(c);
      WordsLower(t);
      if IsSpace(c) {
        WordsCons(c, t);
        WordsCons(LowerChar(c), Lower(t));
      } else if t != [] && !IsSpace(t[0]) {
        WordsLowerJoin(c, t);
      } else {
        WordsLowerStart(c, t);
      }
    }
  }

  /** A word character in front of another one joins its word, lower-cased or not. */
  lemma WordsLowerJoin(c: char, t: string)
    requires !IsSpace(c) && t != [] && !IsSpace(t[0])
    requires Words(Lower(t)) == LowerEach(Words(t))
    ensures Words([LowerChar(c)] + Lower(t)) == LowerEach(Words([c] + t))
  {
    CaseKeepsSpace(c);
    LowerAt(t, 0);
    CaseKeepsSpace(t[0]);
    WordsCons(c, t);
    WordsCons(LowerChar(c), Lower(t));
    var ws := Words(t);
    LowerCons(c, ws[0]);
    LowerEachCons([c] + ws[0], ws[1..]);
    assert ws == [ws[0]] + ws[1..];
    LowerEachCons(ws[0], ws[1..]);
  }

  /** A word character in front of white space, or of nothing, is a word of its own. */
  lemma WordsLowerStart(c: char, t: string)
    requires !IsSpace(c) && (t == [] || IsSpace(t[0]))
    requires Words(Lower(t)) == LowerEach(Words(t))
    ensures Words([LowerChar(c)] + Lower(t)) == LowerEach(Words([c] + t))
  {
    CaseKeepsSpace(c);
    if t != [] {
      LowerAt(t, 0);
      CaseKeepsSpace(t[0]);
    }
    WordsCons(c, t);
    WordsCons(LowerChar(c), Lower(t));
    assert Words([c] + t) == [[c]] + Words(t);
    assert Words([LowerChar(c)] + Lower(t)) == [[LowerChar(c)]] + Words(Lower(t));
    LowerCons(c, []);
    assert [c] + [] == [c];
    assert Lower([c]) == [LowerChar(c)];
    LowerEachCons([c], Words(t));
  }

  /** `s.trim().replace(/\s+/g, " ")` once trimmed: each run of white space becomes one blank. */
  function CollapseSpaces(s: string): (r: string)
    ensures |r| <= |s|
    ensures s == [] <==> r == []
    ensures s != [] ==> (IsSpace(r[0]) <==> IsSpace(s[0]))
    ensures NonSpace(r) == NonSpace(s)
    decreases |s|
  {
    if s == [] then []
    else if IsSpace(s[0]) then
      var t := CollapseSpaces(TrimStart(s));
      NonSpaceTrimStart(s);
      NonSpaceCons(' ', t);
      [' '] + t
    else
      var t := CollapseSpaces(s[1..]);
      NonSpaceCons(s[0], t);
      [s[0]] + t
  }

  /**
   * Collapsing keeps the words, each as it was: every run of white space
   * between two words becomes exactly one blank, in the same place.
   */
  lemma {:induction false} CollapseSpacesWords(s: string)
    ensures Words(CollapseSpaces(s)) == Words(s)
    decreases |s|
  {
    if s != [] {
      if IsSpace(s[0]) {
        var t := CollapseSpaces(TrimStart(s));
        CollapseSpacesWords(TrimStart(s));
        WordsTrimStart(s);
        WordsCons(' ', t);
      } else {
        var t := CollapseSpaces(s[1..]);
        CollapseSpacesWords(s[1..]);
        WordsCons(s[0], t);
        assert s == [s[0]] + s[1..];
        WordsCons(s[0], s[1..]);
      }
    }
  }

  /** Every white-space character is a single blank followed by a non-space. */
  predicate Collapsed(s: string) {
    forall i :: 0 <= i < |s| && IsSpace(s[i]) ==> s[i] == ' ' && (i + 1 < |s| ==> !IsSpace(s[i + 1]))
  }

  /** `replace(/\s+/g, " ")` leaves no run of white space and no white space but a blank. */
  lemma {:induction false} CollapseSpacesCollapsed(s: string)
    ensures Collapsed(CollapseSpaces(s))
    decreases |s|
  {
    if s != [] {
      var r := CollapseSpaces(s);
      if IsSpace(s[0]) {
        CollapseSpacesCollapsed(TrimStart(s));
        assert r[1..] == CollapseSpaces(TrimStart(s));
      } else {
        CollapseSpacesCollapsed(s[1..]);
        assert r[1..] == CollapseSpaces(s[1..]);
      }
    }
  }

  /** A collapsed string has nothing left to collapse. */
  lemma {:induction false} CollapsedFixed(s: string)
    requires Collapsed(s)
    ensures CollapseSpaces(s) == s
  {
    if s != [] {
      if IsSpace(s[0]) {
        assert TrimStart(s[1..]) == s[1..];
        assert TrimStart(s) == s[1..];
      }
      assert Collapsed(s[1..]) by {
        forall i | 0 <= i < |s[1..]| && IsSpace(s[1..][i])
          ensures s[1..][i] == ' ' && (i + 1 < |s[1..]| ==> !IsSpace(s[1..][i + 1]))
        {
          assert s[1..][i] == s[i + 1];
        }
      }
      CollapsedFixed(s[1..]);
    }
  }

  /** Dropping the first character keeps a string collapsed. */
  lemma CollapsedTail(s: string)
    requires Collapsed(s) && s != []
    ensures Collapsed(s[1..])
  {
    forall i | 0 <= i < |s[1..]| && IsSpace(s[1..][i])
      ensures s[1..][i] == ' ' && (i + 1 < |s[1..]| ==> !IsSpace(s[1..][i + 1]))
    {
      assert s[1..][i] == s[i + 1];
    }
  }

  /**
   * How the words of a trimmed, collapsed string start: its first character
   * is a word alone, or it joins the word of the rest, or one blank
   * separates it from the words of what follows.
   */
  lemma TidyStep(x: string)
    requires IsTrimmed(x) && Collapsed(x) && x != []
    ensures Words(x)[0][0] == x[0]
    ensures |x| == 1 ==> Words(x) == [[x[0]]]
    ensures |x| > 1 && !IsSpace(x[1]) ==>
      IsTrimmed(x[1..]) && Collapsed(x[1..]) && |Words(x)[0]| > 1
      && Words(x) == [[x[0]] + Words(x[1..])[0]] + Words(x[1..])[1..]
    ensures |x| > 1 && IsSpace(x[1]) ==>
      x[1] == ' ' && |x| > 2 && IsTrimmed(x[2..]) && Collapsed(x[2..])
      && Words(x) == [[x[0]]] + Words(x[2..]) && |Words(x)| > 1
  {
    var t := x[1..];
    assert x == [x[0]] + t;
    WordsCons(x[0], t);
    CollapsedTail(x);
    if |x| > 1 && IsSpace(x[1]) {
      TidyGap(x);
    }
  }

  /** The blank after the first word of a trimmed, collapsed string is a single one, and a word follows it. */
  lemma TidyGap(x: string)
    requires IsTrimmed(x) && Collapsed(x) && |x| > 1 && IsSpace(x[1])
    ensures x[1] == ' ' && |x| > 2 && IsTrimmed(x[2..]) && Collapsed(x[2..])
    ensures Words(x[1..]) == Words(x[2..])
  {
    var t := x[1..];
    assert t[|t| - 1] == x[|x| - 1];
    assert |x| > 2;
    assert t == [t[0]] + t[1..];
    WordsCons(t[0], t[1..]);
    CollapsedTail(x);
    CollapsedTail(t);
    assert t[1..] == x[2..];
  }

  /** A trimmed, collapsed string is fixed by its words: its only blanks are the single ones between them. */
  lemma {:induction false} TidyByWords(x: string, y: string)
    requires IsTrimmed(x) && Collapsed(x) && IsTrimmed(y) && Collapsed(y)
    requires Words(x) == Words(y)
    ensures x == y
    decreases |x|
  {
    if x == [] || y == [] {
    } else {
      TidyStep(x);
      TidyStep(y);
      if |x| > 1 && |y| > 1 && !IsSpace(x[1]) && !IsSpace(y[1]) {
        TidyJoinRest(x, y);
        TidyByWords(x[1..], y[1..]);
        assert x == [x[0]] + x[1..] && y == [y[0]] + y[1..];
      } else if |x| > 1 && |y| > 1 && IsSpace(x[1]) && IsSpace(y[1]) {
        TidyGapRest(x, y);
        TidyByWords(x[2..], y[2..]);
        assert x == x[..2] + x[2..] && y == y[..2] + y[2..];
      }
    }
  }

  lemma TidyJoinRest(x: string, y: string)
    requires |x| > 1 && |y| > 1 && !IsSpace(x[1]) && !IsSpace(y[1])
    requires Words(x) == [[x[0]] + Words(x[1..])[0]] + Words(x[1..])[1..]
    requires Words(y) == [[y[0]] + Words(y[1..])[0]] + Words(y[1..])[1..]
    requires Words(x) == Words(y)
    ensures Words(x[1..]) == Words(y[1..])
  {
    var wx, wy := Words(x[1..]), Words(y[1..]);
    assert [x[0]] + wx[0] == Words(x)[0] == [y[0]] + wy[0];
    assert wx[0] == ([x[0]] + wx[0])[1..];
    assert wy[0] == ([y[0]] + wy[0])[1..];
    assert wx[1..] == Words(x)[1..] == wy[1..];
    assert wx == [wx[0]] + wx[1..] && wy == [wy[0]] + wy[1..];
  }

  lemma TidyGapRest(x: string, y: string)
    requires |x| > 2 && |y| > 2 && x[1] == ' ' && y[1] == ' '
    requires Words(x) == [[x[0]]] + Words(x[2..])
    requires Words(y) == [[y[0]]] + Words(y[2..])
    requires Words(x) == Words(y)
    ensures Words(x[2..]) == Words(y[2..]) && x[..2] == y[..2]
  {
    var wx, wy := Words(x[2..]), Words(y[2..]);
    assert ([[x[0]]] + wx)[0] == [x[0]] && ([[y[0]]] + wy)[0] == [y[0]];
    assert ([[x[0]]] + wx)[1..] == wx && ([[y[0]]] + wy)[1..] == wy;
    assert x[..2] == [x[0], ' '] && y[..2] == [y[0], ' '];
  }

  /** Collapsing keeps whether the last character is white space. */
  lemma {:induction false} CollapseSpacesLast(s: string)
    requires s != []
    ensures IsSpace(CollapseSpaces(s)[|CollapseSpaces(s)| - 1]) <==> IsSpace(s[|s| - 1])
    decreases |s|
  {
    var r := CollapseSpaces(s);
    if IsSpace(s[0]) {
      var t := TrimStart(s);
      TrimStartSpec(s);
      assert r == [' '] + CollapseSpaces(t);
      if t == [] {
        assert AllSpace(s[..|s|]);
        assert IsSpace(s[|s| - 1]);
      } else {
        CollapseSpacesLast(t);
        assert r[|r| - 1] == CollapseSpaces(t)[|CollapseSpaces(t)| - 1];
        assert t[|t| - 1] == s[|s| - 1];
      }
    } else if |s| > 1 {
      assert r == [s[0]] + CollapseSpaces(s[1..]);
      CollapseSpacesLast(s[1..]);
      assert r[|r| - 1] == CollapseSpaces(s[1..])[|CollapseSpaces(s[1..])| - 1];
    }
  }

  /** Collapsing a trimmed string keeps it trimmed. */
  lemma CollapseKeepsTrimmed(s: string)
    requires IsTrimmed(s)
    ensures IsTrimmed(CollapseSpaces(s))
  {
    if s != [] {
      CollapseSpacesLast(s);
    }
  }

  lemma LowerKeepsTrimmed(s: string)
    requires IsTrimmed(s)
    ensures IsTrimmed(Lower(s))
  {
    if s != [] {
      CaseKeepsSpace(s[0]);
      CaseKeepsSpace(s[|s| - 1]);
      LowerAt(s, 0);
      LowerAt(s, |s| - 1);
    }
  }

  lemma LowerKeepsCollapsed(s: string)
    requires Collapsed(s)
    ensures Collapsed(Lower(s))
  {
    forall i | 0 <= i < |s|
      ensures Lower(s)[i] == LowerChar(s[i]) && (IsSpace(Lower(s)[i]) <==> IsSpace(s[i]))
    {
      LowerAt(s, i);
      CaseKeepsSpace(s[i]);
    }
  }

  /** Lower-casing twice is lower-casing once. */
  lemma LowerLower(s: string)
    ensures Lower(Lower(s)) == Lower(s)
  {
    if s != [] {
      LowerLower(s[1..]);
    }
  }

  /** The characters of `s` that are not white space, in order: what every normalisation here keeps. */
  function NonSpace(s: string): (r: string)
    ensures |r| <= |s|
    ensures forall i :: 0 <= i < |r| ==> !IsSpace(r[i])
  {
    if s == [] then [] else (if IsSpace(s[0]) then [] else [s[0]]) + NonSpace(s[1..])
  }

  lemma NonSpaceCons(c: char, s: string)
    ensures NonSpace([c] + s) == (if IsSpace(c) then [] else [c]) + NonSpace(s)
  {
    assert ([c] + s)[1..] == s;
  }

  lemma {:induction false} NonSpaceAppend(a: string, b: string)
    ensures NonSpace(a + b) == NonSpace(a) + NonSpace(b)
  {
    if a == [] {
      assert a + b == b;
    } else {
      assert a + b == [a[0]] + (a[1..] + b);
      NonSpaceCons(a[0], a[1..] + b);
      NonSpaceAppend(a[1..], b);
    }
  }

  lemma {:induction false} NonSpaceAllSpace(s: string)
    requires AllSpace(s)
    ensures NonSpace(s) == []
  {
    if s != [] {
      NonSpaceAllSpace(s[1..]);
    }
  }

  lemma {:induction false} NonSpaceTrimStart(s: string)
    ensures NonSpace(TrimStart(s)) == NonSpace(s)
  {
    if s != [] && IsSpace(s[0]) {
      NonSpaceTrimStart(s[1..]);
    }
  }

  /** `trim()` removes white space only: the other characters stay, in order. */
  lemma NonSpaceTrim(s: string)
    ensures NonSpace(Trim(s)) == NonSpace(s)
  {
    var o, t := TrimOffset(s), Trim(s);
    TrimSpec(s);
    assert s == s[..o] + t + s[o + |t|..];
    NonSpaceAppend(s[..o] + t, s[o + |t|..]);
    NonSpaceAppend(s[..o], t);
    NonSpaceAllSpace(s[..o]);
    NonSpaceAllSpace(s[o + |t|..]);
  }

  lemma LowerCons(c: char, s: string)
    ensures Lower([c] + s) == [LowerChar(c)] + Lower(s)
  {
    assert ([c] + s)[1..] == s;
  }

  /** `toLowerCase` keeps white space where it is and lower-cases the rest. */
  lemma {:induction false} NonSpaceLower(s: string)
    ensures NonSpace(Lower(s)) == Lower(NonSpace(s))
  {
    if s != [] {
      CaseKeepsSpace(s[0]);
      assert Lower(s) == [LowerChar(s[0])] + Lower(s[1..]);
      NonSpaceCons(LowerChar(s[0]), Lower(s[1..]));
      assert s == [s[0]] + s[1..];
      NonSpaceCons(s[0], s[1..]);
      NonSpaceLower(s[1..]);
      if IsSpace(s[0]) {
        assert NonSpace(Lower(s)) == NonSpace(Lower(s[1..]));
        assert NonSpace(s) == NonSpace(s[1..]);
      } else {
        LowerCons(s[0], NonSpace(s[1..]));
        assert NonSpace(Lower(s)) == [LowerChar(s[0])] + NonSpace(Lower(s[1..]));
        assert NonSpace(s) == [s[0]] + NonSpace(s[1..]);
      }
    }
  }

  /** Decimal digits of a natural number, most significant first. */
  function NatToString(n: nat): (r: string)
    ensures r != []
    ensures forall i :: 0 <= i < |r| ==> '0' <= r[i] <= '9'
    decreases n
  {
    var d := [(('0' as int) + n % 10) as char];
    if n < 10 then d else NatToString(n / 10) + d
  }

  /** `String(n)` for an integer of ordinary size. */
  function IntToString(n: int): (r: string)
    ensures r != []
    ensures n < 0 <==> r[0] == '-'
  {
    if n < 0 then "-" + NatToString(-n) else NatToString(n)
  }

  /** The value of a non-empty string of decimal digits, most significant first. */
  function ReadNat(s: string): (r: Option<nat>)
    ensures r.Some? ==> s != [] && forall i :: 0 <= i < |s| ==> '0' <= s[i] <= '9'
  {
    if s == [] || !('0' <= s[|s| - 1] <= '9') then None
    else
      var d := s[|s| - 1] as int - '0' as int;
      if |s| == 1 then Some(d)
      else match ReadNat(s[..|s| - 1])
        case None => None
        case Some(v) => Some(10 * v + d)
  }

  /** An integer written as an optional `-` and decimal digits. */
  function ReadInt(s: string): (r: Option<int>)
    ensures r.Some? ==> s != []
  {
    if s != [] && s[0] == '-' then
      match ReadNat(s[1..])
      case None => None
      case Some(v) => Some(0 - v)
    else
      match ReadNat(s)
      case None => None
      case Some(v) => Some(v)
  }

  lemma {:induction false} ReadNatString(n: nat)
    ensures ReadNat(NatToString(n)) == Some(n)
    decreases n
  {
    var s := NatToString(n);
    if n >= 10 {
      ReadNatString(n / 10);
      assert s[..|s| - 1] == NatToString(n / 10);
    }
  }

  /** `String(n)` reads back as `n`: no two integers print alike. */
  lemma IntToStringReadsBack(n: int)
    ensures ReadInt(IntToString(n)) == Some(n)
  {
    var s := IntToString(n);
    if n < 0 {
      ReadNatString(-n);
      assert s[1..] == NatToString(-n);
    } else {
      ReadNatString(n);
    }
  }
}

=== FILE: transfer.dfy ===
/**
 * `POST /api/movimentacoes`: a transfer between two areas, admitted only when
 * the origin holds enough pallets of the type. The decision is one atomic step
 * over the ledger as it stands.
 */
module Transfer {
  import opened Wrappers
  import opened Text
  import opened Ledger
  import opened Saldo

  /** The JSON body of the request, each field absent or a string. */
  datatype Request = Request(
    origem: Option<string>,
    destino: Option<string>,
    tipoPalete: Option<string>,
    quantidade: Num,
    fornecedor: Option<string>,
    observacao: Option<string>)

  /** The four 400 answers, in the order the route checks them. */
  datatype Rejection =
    | MissingFields
    | NonPositiveQuantity
    | SameEndpoints
    | InsufficientBalance(origem: string, saldo: int)
  {
    function Message(): string {
      match this
      case MissingFields => "Campos obrigatórios ausentes"
      case NonPositiveQuantity => "Quantidade deve ser maior que 0"
      case SameEndpoints => "Origem e destino não podem ser iguais"
      case InsufficientBalance(o, s) =>
        "Saldo insuficiente na origem (" + o + "). Saldo atual: " + IntToString(s)
    }
  }

  /** A request that passed validation: normalised names and a positive count. */
  datatype Validated = Validated(origem: string, destino: string, tipo: string, quantidade: int)

  /** The required-fields check: every name is non-blank and the quantity is a finite number. */
  predicate HasRequiredFields(req: Request) {
    && Trim(OrEmpty(req.origem)) != []
    && Trim(OrEmpty(req.destino)) != []
    && Trim(OrEmpty(req.tipoPalete)) != []
    && req.quantidade.IsFinite()
  }

  /** The request checks: missing fields, then the quantity, then equal endpoints; the first failure wins. */
  function Validate(req: Request): (r: Result<Validated, Rejection>)
    ensures r == Err(MissingFields) <==> !HasRequiredFields(req)
    ensures r == Err(NonPositiveQuantity) <==> HasRequiredFields(req) && req.quantidade.value <= 0
    ensures r == Err(SameEndpoints) <==>
      HasRequiredFields(req) && req.quantidade.value > 0 && UpperField(req.origem) == UpperField(req.destino)
    ensures r.Err? ==> !r.error.InsufficientBalance?
    ensures r.Ok? ==>
      && r.value.origem == UpperField(req.origem) != []
      && r.value.destino == UpperField(req.destino) != []
      && r.value.tipo == UpperField(req.tipoPalete) != []
      && r.value.origem != r.value.destino
      && req.quantidade == Finite(r.value.quantidade) && r.value.quantidade > 0
  {
    var o, d, t, q := UpperField(req.origem), UpperField(req.destino), UpperField(req.tipoPalete), req.quantidade;
    if o == [] || d == [] || t == [] || !q.IsFinite() then Err(MissingFields)
    else if q.value <= 0 then Err(NonPositiveQuantity)
    else if o == d then Err(SameEndpoints)
    else Ok(Validated(o, d, t, q.value))
  }

  /** The rows the guard reads: `findMany({ where: { tipoPalete } })`, an exact match. */
  function OfType(ledger: seq<Movement>, tipo: string): (r: seq<Movement>)
    ensures forall m :: m in r <==> m in ledger && m.tipoPalete == tipo
    ensures (forall i :: 0 <= i < |ledger| ==> ledger[i].tipoPalete == tipo) ==> r == ledger
  {
    if ledger == [] then []
    else
      var m := ledger[|ledger| - 1];
      assert ledger == ledger[..|ledger| - 1] + [m];
      OfType(ledger[..|ledger| - 1], tipo) + (if m.tipoPalete == tipo then [m] else [])
  }

  /**
   * `calcularSaldo` over the rows stored with exactly this type: the
   * balance itself on a ledger that spells the type one way only, and 0
   * when no row spells it exactly so.
   */
  function GuardBalance(ledger: seq<Movement>, origem: string, tipo: string): (r: int)
    ensures (forall i :: 0 <= i < |ledger| ==> ledger[i].tipoPalete == tipo) ==> r == Balance(ledger, origem, tipo)
    ensures (forall i :: 0 <= i < |ledger| ==> ledger[i].tipoPalete != tipo) ==> r == 0
  {
    var rows := OfType(ledger, tipo);
    assert (forall i :: 0 <= i < |ledger| ==> ledger[i].tipoPalete != tipo) ==> rows == [] by {
      if rows != [] {
        assert rows[0] in rows;
      }
    }
    Balance(rows, origem, tipo)
  }

  /** The row the route creates at instant `now`. */
  function Record(v: Validated, req: Request, now: Instant): Movement {
    Movement(Some(v.origem), Some(v.destino), v.tipo, v.quantidade,
             OptionalText(req.fornecedor), OptionalText(req.observacao), now)
  }

  /** `POST /api/movimentacoes`: validate, then refuse when the origin would go negative, else create the row. */
  function Admit(ledger: seq<Movement>, req: Request, now: Instant): (r: Result<Movement, Rejection>)
    ensures Validate(req).Err? ==> r == Err(Validate(req).error)
    ensures Validate(req).Ok? ==>
      var v := Validate(req).value;
      var saldo := GuardBalance(ledger, v.origem, v.tipo);
      && (saldo < v.quantidade ==> r == Err(InsufficientBalance(v.origem, saldo)))
      && (saldo >= v.quantidade ==> r == Ok(Record(v, req, now)))
  {
    match Validate(req)
    case Err(e) => Err(e)
    case Ok(v) =>
      var saldo := GuardBalance(ledger, v.origem, v.tipo);
      if saldo - v.quantidade < 0 then Err(InsufficientBalance(v.origem, saldo))
      else Ok(Record(v, req, now))
  }

  lemma OfTypeSnoc(ledger: seq<Movement>, m: Movement, tipo: string)
    ensures OfType(ledger + [m], tipo) == OfType(ledger, tipo) + (if m.tipoPalete == tipo then [m] else [])
  {
    assert (ledger + [m])[..|ledger|] == ledger;
  }

  /** The guard never sees a row whose stored type is spelled differently, even if it normalises alike. */
  lemma GuardIgnoresOtherSpellings(ledger: seq<Movement>, m: Movement, origem: string, tipo: string)
    requires m.tipoPalete != tipo
    ensures GuardBalance(ledger + [m], origem, tipo) == GuardBalance(ledger, origem, tipo)
  {
    OfTypeSnoc(ledger, m, tipo);
    assert OfType(ledger, tipo) + [] == OfType(ledger, tipo);
  }

  /** An admitted transfer's own step: the origin loses the quantity, the destination gains it. */
  lemma AdmittedStep(ledger: seq<Movement>, req: Request, now: Instant, area: string)
    requires Admit(ledger, req, now).Ok?
    ensures var v := Validate(req).value;
      var rec := Admit(ledger, req, now).value;
      && Step(rec, Norm(Some(v.origem)), Norm(Some(v.tipo))) == -v.quantidade
      && Step(rec, Norm(Some(v.destino)), Norm(Some(v.tipo))) == v.quantidade
      && (Norm(Some(area)) != Norm(Some(v.origem)) && Norm(Some(area)) != Norm(Some(v.destino)) ==>
            Step(rec, Norm(Some(area)), Norm(Some(v.tipo))) == 0)
  {
    var v := Validate(req).value;
    var rec := Admit(ledger, req, now).value;
    assert rec == Record(v, req, now);
    var to, td := Trim(OrEmpty(req.origem)), Trim(OrEmpty(req.destino));
    UpperKeepsTrimmed(to);
    UpperKeepsTrimmed(td);
    TrimTrimmed(v.origem);
    TrimTrimmed(v.destino);
    if Norm(Some(v.origem)) == Norm(Some(v.destino)) {
      LowerInjectiveOnUpper(to, td);
      assert false;
    }
    TransferStep(rec, v.origem, v.destino, v.tipo, area);
  }

  /** A row between two distinct named areas moves its quantity from one to the other and touches no third. */
  lemma TransferStep(rec: Movement, o: string, d: string, t: string, area: string)
    requires rec.origem == Some(o) && rec.destino == Some(d) && rec.tipoPalete == t && o != []
    requires Norm(Some(o)) != Norm(Some(d))
    ensures Step(rec, Norm(Some(o)), Norm(Some(t))) == -rec.quantidade
    ensures Step(rec, Norm(Some(d)), Norm(Some(t))) == rec.quantidade
    ensures Norm(Some(area)) != Norm(Some(o)) && Norm(Some(area)) != Norm(Some(d)) ==>
      Step(rec, Norm(Some(area)), Norm(Some(t))) == 0
  {
    assert Present(rec.origem);
  }

  /**
   * After an admitted transfer the origin's guard balance is what it was minus
   * the quantity, and never negative.
   */
  lemma AdmittedKeepsOriginNonNegative(ledger: seq<Movement>, req: Request, now: Instant)
    requires Admit(ledger, req, now).Ok?
    ensures var v := Validate(req).value;
      var after := GuardBalance(ledger + [Admit(ledger, req, now).value], v.origem, v.tipo);
      after == GuardBalance(ledger, v.origem, v.tipo) - v.quantidade && after >= 0
  {
    var v := Validate(req).value;
    var rec := Admit(ledger, req, now).value;
    OfTypeSnoc(ledger, rec, v.tipo);
    BalanceSnoc(OfType(ledger, v.tipo), rec, v.origem, v.tipo);
    AdmittedStep(ledger, req, now, v.origem);
  }

  /** An admitted transfer moves the quantity from origin to destination and touches no other area. */
  lemma AdmittedMovesQuantity(ledger: seq<Movement>, req: Request, now: Instant, area: string)
    requires Admit(ledger, req, now).Ok?
    ensures var v := Validate(req).value;
      var after := ledger + [Admit(ledger, req, now).value];
      && Balance(after, v.origem, v.tipo) == Balance(ledger, v.origem, v.tipo) - v.quantidade
      && Balance(after, v.destino, v.tipo) == Balance(ledger, v.destino, v.tipo) + v.quantidade
      && (Norm(Some(area)) != Norm(Some(v.origem)) && Norm(Some(area)) != Norm(Some(v.destino)) ==>
            Balance(after, area, v.tipo) == Balance(ledger, area, v.tipo))
  {
    var v := Validate(req).value;
    var rec := Admit(ledger, req, now).value;
    BalanceSnoc(ledger, rec, v.origem, v.tipo);
    BalanceSnoc(ledger, rec, v.destino, v.tipo);
    BalanceSnoc(ledger, rec, area, v.tipo);
    AdmittedStep(ledger, req, now, area);
  }

  /**
   * A transfer that empties the origin is admitted, and the next one of the
   * same type from that origin is refused, reporting a balance of 0.
   */
  lemma DrainedOriginRefusesNext(ledger: seq<Movement>, req: Request, next: Request, now: Instant, later: Instant)
    requires Admit(ledger, req, now).Ok?
    requires GuardBalance(ledger, Validate(req).value.origem, Validate(req).value.tipo) == Validate(req).value.quantidade
    requires Validate(next).Ok?
    requires Validate(next).value.origem == Validate(req).value.origem
    requires Validate(next).value.tipo == Validate(req).value.tipo
    ensures Admit(ledger + [Admit(ledger, req, now).value], next, later)
         == Err(InsufficientBalance(Validate(req).value.origem, 0))
  {
    var w := Validate(next).value;
    var after := ledger + [Admit(ledger, req, now).value];
    AdmittedKeepsOriginNonNegative(ledger, req, now);
    assert GuardBalance(after, w.origem, w.tipo) == 0 < w.quantidade;
  }
}

=== FILE: type_summary.dfy ===
/**
 * `GET /api/resumo-mensal-por-tipo`: the month's movements summed per pallet
 * type, keyed by the stored `tipoPalete`. Every row opens the bucket of its
 * type, even one with neither end set.
 */
module TypeSummary {
  import opened Wrappers
  import opened Ledger
  import opened Monthly

  /** One pass of the loop: open the type's bucket, credit on a truthy destino, debit on a truthy origem. */
  function TypeStep(r: map<string, Summary>, m: Movement): (r': map<string, Summary>)
    ensures r'.Keys == r.Keys + {m.tipoPalete}
  {
    var t := m.tipoPalete;
    var touched := r[t := Get(r, t)];
    var credited := if Present(m.destino) then Credit(touched, t, m.quantidade) else touched;
    if Present(m.origem) then Debit(credited, t, m.quantidade) else credited
  }

  /** The loop over the month's rows. */
  function SummariseByType(rows: seq<Movement>): (r: map<string, Summary>)
    ensures r.Keys == Types(rows)
  {
    if rows == [] then map[]
    else
      TypesSnoc(rows);
      TypeStep(SummariseByType(rows[..|rows| - 1]), rows[|rows| - 1])
  }

  /** The stored types of the rows. */
  function Types(rows: seq<Movement>): set<string> {
    set m | m in rows :: m.tipoPalete
  }

  /** Σ quantity of the rows of type `t` with a truthy destino. */
  function TypeInflow(rows: seq<Movement>, t: string): int {
    if rows == [] then 0
    else
      var m := rows[|rows| - 1];
      TypeInflow(rows[..|rows| - 1], t) + (if m.tipoPalete == t && Present(m.destino) then m.quantidade else 0)
  }

  /** Σ quantity of the rows of type `t` with a truthy origem. */
  function TypeOutflow(rows: seq<Movement>, t: string): int {
    if rows == [] then 0
    else
      var m := rows[|rows| - 1];
      TypeOutflow(rows[..|rows| - 1], t) + (if m.tipoPalete == t && Present(m.origem) then m.quantidade else 0)
  }

  lemma TypeStepGet(r: map<string, Summary>, m: Movement, t: string)
    ensures Get(TypeStep(r, m), t) == Summary(
      Get(r, t).entradas + (if m.tipoPalete == t && Present(m.destino) then m.quantidade else 0),
      Get(r, t).saidas + (if m.tipoPalete == t && Present(m.origem) then m.quantidade else 0),
      Get(r, t).saldo + (if m.tipoPalete == t && Present(m.destino) then m.quantidade else 0)
                      - (if m.tipoPalete == t && Present(m.origem) then m.quantidade else 0))
  {
  }

  lemma TypesSnoc(rows: seq<Movement>)
    requires rows != []
    ensures Types(rows) == Types(rows[..|rows| - 1]) + {rows[|rows| - 1].tipoPalete}
  {
    assert rows == rows[..|rows| - 1] + [rows[|rows| - 1]];
    forall t | t in Types(rows) ensures t in Types(rows[..|rows| - 1]) + {rows[|rows| - 1].tipoPalete} {
      var m :| m in rows && m.tipoPalete == t;
      if m != rows[|rows| - 1] {
        assert m in rows[..|rows| - 1];
      }
    }
    assert rows[|rows| - 1] in rows;
  }

  /** One type's bucket holds its inflow, outflow and their difference. */
  lemma {:induction false} SummariseByTypeAt(rows: seq<Movement>, t: string)
    ensures Get(SummariseByType(rows), t) == Summary(TypeInflow(rows, t), TypeOutflow(rows, t), TypeInflow(rows, t) - TypeOutflow(rows, t))
  {
    if rows != [] {
      var prefix, m := rows[..|rows| - 1], rows[|rows| - 1];
      SummariseByTypeAt(prefix, t);
      TypeStepGet(SummariseByType(prefix), m, t);
    }
  }

  /**
   * The buckets are exactly the types of the rows, and each holds the type's
   * inflow, outflow and their difference.
   */
  lemma SummariseByTypeSpec(rows: seq<Movement>)
    ensures SummariseByType(rows).Keys == Types(rows)
    ensures forall t ::
      Get(SummariseByType(rows), t) == Summary(TypeInflow(rows, t), TypeOutflow(rows, t), TypeInflow(rows, t) - TypeOutflow(rows, t))
  {
    forall t
      ensures Get(SummariseByType(rows), t) == Summary(TypeInflow(rows, t), TypeOutflow(rows, t), TypeInflow(rows, t) - TypeOutflow(rows, t))
    {
      SummariseByTypeAt(rows, t);
    }
  }

  /** A row with neither end set still opens its type's bucket, at zero. */
  lemma EndlessRowOpensBucket(rows: seq<Movement>, m: Movement)
    requires !Present(m.origem) && !Present(m.destino)
    ensures m.tipoPalete in SummariseByType(rows + [m])
    ensures forall t :: Get(SummariseByType(rows + [m]), t) == Get(SummariseByType(rows), t)
  {
    assert (rows + [m])[..|rows|] == rows;
    forall t ensures Get(SummariseByType(rows + [m]), t) == Get(SummariseByType(rows), t) {
      TypeStepGet(SummariseByType(rows), m, t);
    }
  }

  /** A transfer with both ends set raises entradas and saidas of its type alike and leaves its saldo. */
  lemma TransferKeepsTypeSaldo(rows: seq<Movement>, m: Movement)
    requires Present(m.origem) && Present(m.destino)
    ensures var before, after := Get(SummariseByType(rows), m.tipoPalete), Get(SummariseByType(rows + [m]), m.tipoPalete);
      after == Summary(before.entradas + m.quantidade, before.saidas + m.quantidade, before.saldo)
  {
    assert (rows + [m])[..|rows|] == rows;
    TypeStepGet(SummariseByType(rows), m, m.tipoPalete);
  }

  /** `GET /api/resumo-mensal-por-tipo`: the response for `?ano=…&mes=…` over the whole ledger. */
  function TypeSummaryOf(ledger: seq<Movement>, ano: Num, mes: Num): (r: Result<map<string, Summary>, PeriodError>)
    ensures r.Err? <==> CheckPeriod(ano, mes, "Erro ao gerar resumo por tipo").Err?
    ensures r.Err? ==> r.error == CheckPeriod(ano, mes, "Erro ao gerar resumo por tipo").error
    ensures r.Ok? ==> r.value.Keys == Types(Window(ledger, ano.value, mes.value))
    ensures r.Ok? ==> forall k :: k in r.value ==> r.value[k].saldo == r.value[k].entradas - r.value[k].saidas
  {
    match CheckPeriod(ano, mes, "Erro ao gerar resumo por tipo")
    case Err(e) => Err(e)
    case Ok(p) =>
      var w := Window(ledger, p.0, p.1);
      SummariseByTypeSpec(w);
      assert forall k :: k in SummariseByType(w) ==> Get(SummariseByType(w), k) == SummariseByType(w)[k];
      Ok(SummariseByType(w))
  }
}

=== FILE: wrappers.dfy ===
/** Failure-compatible wrappers shared by every route model. */
module Wrappers {

  /** A value that may be absent: JavaScript's `null`/`undefined`. */
  datatype Option<+T> = None | Some(value: T) {

    /** `this ?? default`. */
    function GetOr(default: T): T {
      match this
      case Some(v) => v
      case None => default
    }
  }

  /** The outcome of a route: the created or returned value, or an error response. */
  datatype Result<+R, +E> = Ok(value: R) | Err(error: E)
}
